=== FILE: README.md ===
# CRUD-Java providers and services, modelled in Dafny

The application keeps providers and services in a many-to-many relation,
stored as rows `(provider_id, service_id)` of a `provider_service` join table.
This project models the logic at its core:

- **Graph reconstruction.** `ProviderResultExtractor` and `ServiceResultExtractor`
  turn the flat rows of a join query into entity graphs. Each primary entity
  (a provider or a service) appears once, with its distinct related entities.
  At DEEP depth, each related entity also lists the "secondary" entities of
  its own relation. The extractors are mirror images, so one generic fold
  models both (`Reconstruct.Extract`), parameterised by the primary kind and
  read through each extractor's column labels (`Rows.ProviderColumns`,
  `Rows.ServiceColumns`). The fold is proved equal to an independent
  description of its result (`Reconstruct.Expected`). `ResultExtractors.ExtractData`
  is the `while (rs.next())` loop written imperatively. It is proved to compute the same
  thing.
- **Depth policy.** `DepthLevel` parses its tokens case-insensitively
  (`Depth.FromString`). The repositories' `findAll` accepts SHALLOW and
  MEDIUM only; `findById` accepts all three levels.
- **Entity list helpers.** The add, contains, get and remove helpers of
  `ProviderEntity` and `ServiceEntity` are modelled once in `Entities`, on a
  single `Entity` datatype tagged with its kind.
- **Join-table maintenance.** `update` reads the owner's current partner ids.
  It computes the ids to remove and the ids to add, then issues one DELETE
  and one INSERT per id. `save` inserts one row per related entity. The
  table is modelled as a sequence of `JoinTable.Link` rows. `JoinTable.Side`
  says which column the repository owns. `ProviderRepository` and
  `ServiceRepository` instantiate the generic definitions.

The database is not modelled. A fetch takes the rows its query returns as a
parameter (`seq<ResultRow>`, one map per accessor). A column missing from a
row's map stands for the `SQLException` its accessor throws. `save` takes the
generated key as a parameter. Java exceptions become the `Failure` case of a
`Result`: `IllegalArgumentException` is `DepthError`, and the extractor's
`SQLException` is `ExtractError`.

Notes on how the code behaves, which the model follows:
- The secondary entity is appended with `addProvider` / `addService` without
  checking for its id (ProviderResultExtractor.java:63,
  ServiceResultExtractor.java:63). Two identical DEEP rows therefore list the
  secondary twice (`Scenarios.DeepRowsRepeatSecondary`).
- `extractData` ends with `(List<ProviderEntity>) providers.values()`
  (ProviderResultExtractor.java:69, and likewise ServiceResultExtractor.java:69).
  `HashMap.values()` is a collection view, not a `List`, so the cast always
  throws `ClassCastException`, even for an empty result: the Java method never
  returns normally. The model leaves the cast out. Each `Success` of
  `ExtractProviders`, `ExtractServices`, `FindAll` and `FindById` is the map
  the loop has built before that throw.
- The update diff works on lists, and the INSERT loop
  (ProviderRepository.java:165-170) does no dedup. A related id listed twice
  and not yet stored is inserted twice (`JoinTable.SyncRepeatsDuplicateIds`),
  provided the table accepts duplicate rows (see "Left out").
- `extractData(ResultSet)` has no depth parameter. It reads whatever column
  pairs a row carries, so a depth bounds the nesting only through the columns
  its query selects (`Reconstruct.DepthBoundsNesting`).

Files:
- `wrappers.dfy`: `Option` and `Result`.
- `entities.dfy`: the entity datatype and its list helpers.
- `depth.dfy`: the depth policy.
- `rows.dfy`: result rows and column labels.
- `reconstruct.dfy`: the generic fold, its reference description and the
  theorems relating them.
- `extractors.dfy`: the extraction loop and the two extractors.
- `join_table.dfy`: the join table, the diff, and the update and save paths.
- `provider_repository.dfy`, `service_repository.dfy`: the two repositories.
- `scenarios.dfy`: small concrete inputs worked through the model.

## Model

| member | source | states |
|---|---|---|
| Entities.New | app/src/main/java/crud/entity/ProviderEntity.java:41-46 | The constructor keeps the given kind, id and name, is not deleted, and contains no related id. |
| Entities.ContainsRelated | app/src/main/java/crud/entity/ProviderEntity.java:64-66 | `containsService` holds iff some element of the related list has that id. |
| Entities.GetRelated | app/src/main/java/crud/entity/ServiceEntity.java:79-83 | `getProvider` is present iff `containsProvider` holds. It then returns an element with that id, and no earlier element has it. |
| Entities.AddRelated | app/src/main/java/crud/entity/ServiceEntity.java:56-58 | `addProvider` appends at the end. The length grows by one, earlier elements and all other fields are unchanged, and the id is contained afterwards. |
| Entities.AddRelatedDistinct | app/src/main/java/crud/entity/ProviderEntity.java:53-55 | On a duplicate-free list, the append keeps ids distinct iff the id was absent. Appending a present id yields a duplicate, since there is no dedup. |
| Entities.FirstIndex | app/src/main/java/crud/entity/ProviderEntity.java:77-79 | The stream's `findFirst`: a position holding the id with no earlier one holding it, or none when no element has the id. |
| Entities.RemoveFirst | app/src/main/java/crud/entity/ProviderEntity.java:88 | `List.remove(Object)` on the related list. Characterised by `Entities.RemoveFirstSpec`. |
| Entities.RemoveFirstSpec | app/src/main/java/crud/entity/ProviderEntity.java:88 | `RemoveFirst` leaves the list unchanged when no element equals `x`. Otherwise it drops exactly the first position holding `x`, in order. Either way the multiset loses one `x`. |
| Entities.RemoveFirstAt | app/src/main/java/crud/entity/ProviderEntity.java:87-89 | When the first element equal to `x` is at position k, `removeService` yields the list without position k, in order. |
| Entities.RemoveFirstAbsent | app/src/main/java/crud/entity/ServiceEntity.java:90-92 | `removeProvider` of an element not in the list leaves the list unchanged. |
| Entities.RemoveFirstMultiset | app/src/main/java/crud/entity/ServiceEntity.java:90-92 | Removal takes away exactly one occurrence of `x` as a multiset, so at most one element goes. |
| Entities.RemoveRelated | app/src/main/java/crud/entity/ProviderEntity.java:87-89 | Other fields are unchanged, and the related list changes as `List.remove(Object)` promises (`Entities.RemovesFirst`). An absent element changes nothing. Otherwise only the first equal element goes, and the rest keep their order. |
| Depth.Value | app/src/main/java/crud/utils/DepthLevel.java:8-30 | `getValue` returns the token the level was declared with, a non-empty lower-case word. |
| Depth.EqualsString | app/src/main/java/crud/utils/DepthLevel.java:57-59 | `equalsString(v)` holds iff `v`, folded to lower case, is the level's token. `Depth.EqualsStringIffFromString` relates it to `fromString`. |
| Depth.FirstMatch | app/src/main/java/crud/utils/DepthLevel.java:41-45 | The loop over `values()` returns a level whose token matches, or none when no level in the list matches. |
| Depth.FromString | app/src/main/java/crud/utils/DepthLevel.java:40-47 | Parsing succeeds iff some level's token equals the input ignoring case, and then it returns that level. Otherwise it fails with `UnknownDepthLevel(value)`. |
| Depth.AtMostOneLevelMatches | app/src/main/java/crud/utils/DepthLevel.java:8-10 | The three tokens stay pairwise distinct under case folding, so no input matches two levels. |
| Depth.ValueRoundTrip | app/src/main/java/crud/utils/DepthLevel.java:19-30 | `fromString(getValue(d))` is `d` for every level. |
| Depth.EqualsStringIffFromString | app/src/main/java/crud/utils/DepthLevel.java:57-59 | `d.equalsString(v)` holds iff `fromString(v)` returns `d`. |
| Depth.FromStringIgnoresCase | app/src/main/java/crud/utils/DepthLevel.java:42 | Two inputs equal up to case parse to the same level, or both fail. |
| Depth.FindAllDepth | app/src/main/java/crud/repository/ProviderRepository.java:80-89 | The `findAll` switch accepts exactly SHALLOW and MEDIUM. DEEP reaches `default:` and fails with `UnsupportedDepth`. |
| Depth.FindByIdDepth | app/src/main/java/crud/repository/ProviderRepository.java:105-117 | The `findById` switch accepts every level and keeps it. |
| Depth.DeepTokenOnlyForSingleLookup | app/src/main/java/crud/repository/ServiceRepository.java:76-113 | A token naming DEEP in any case parses to DEEP. It is accepted by the single-lookup switch and refused by the bulk one. |
| Rows.ReadCell | app/src/main/java/crud/mapper/ProviderResultExtractor.java:55-56 | A column pair is read iff both labels are present, and then it holds the two columns' values. Otherwise it is the `SQLException` the first missing read throws. |
| Rows.ReadRow | app/src/main/java/crud/mapper/ProviderResultExtractor.java:33-56 | Each of the four reads of one iteration succeeds iff its own labels are present in the row, and then holds exactly the values under those labels. |
| Reconstruct.Extract | app/src/main/java/crud/mapper/ProviderResultExtractor.java:32-67 | The `while (rs.next())` loop as a fold over the rows. Characterised by `Reconstruct.ExtractMatchesReference`. |
| Reconstruct.Step | app/src/main/java/crud/mapper/ProviderResultExtractor.java:33-66 | One loop iteration. Characterised by `Reconstruct.StepOutcome` and `Reconstruct.StepMatchesReference`. |
| Reconstruct.StepOutcome | app/src/main/java/crud/mapper/ProviderResultExtractor.java:33-41 | An iteration fails iff the row has no primary id, or its id is new and it has no name. On success the keys gain the row's id, and every other root is unchanged. A new root has the primary kind, the row's id and name, and is not deleted. The name column is read only when a root is created. |
| Reconstruct.AttachRow | app/src/main/java/crud/mapper/ProviderResultExtractor.java:43-66 | The two `try` blocks of one iteration. Characterised by `Reconstruct.AttachRowKeepsRoot` and `Reconstruct.AttachRowFresh`. |
| Reconstruct.AttachRowKeepsRoot | app/src/main/java/crud/mapper/ProviderResultExtractor.java:43-66 | The root's own fields never change. A row without a related pair changes nothing (the `continue`). Otherwise the related id is contained afterwards, at most one element is added, and the earlier ids stay in place. |
| Reconstruct.AttachRowFresh | app/src/main/java/crud/mapper/ProviderResultExtractor.java:43-66 | A row whose related id the root does not list yet appends one related entity of the other kind. It holds the row's secondary entity when the row has a secondary pair, and nothing otherwise. |
| Reconstruct.AddRelatedIfAbsent | app/src/main/java/crud/mapper/ProviderResultExtractor.java:45-49 | Guarded append: afterwards the id is contained. The list grows by one exactly when the id was absent, the old elements stay as a prefix, and distinct ids stay distinct. |
| Reconstruct.AttachSecondary | app/src/main/java/crud/mapper/ProviderResultExtractor.java:54-63 | The secondary is appended to the related list of the first related element with the given id. Every other element and the list of ids are unchanged. When no element has the id, nothing visible changes. |
| Reconstruct.ExtractMatchesReference | app/src/main/java/crud/mapper/ProviderResultExtractor.java:29-67 | The loop succeeds iff every row has a primary id and each new root's first row has a name. It then yields exactly the reference description: one root per primary id, named from its first row, listing its distinct related ids in first-seen order, each holding one secondary per DEEP row. |
| Reconstruct.FailureIsFinal | app/src/main/java/crud/mapper/ProviderResultExtractor.java:32-39 | Once a prefix of the rows fails, every longer prefix fails with the same error. The thrown `SQLException` ends the scan. |
| Reconstruct.ReadableByPosition | app/src/main/java/crud/mapper/ServiceResultExtractor.java:33-39 | The rows are readable iff every row has a primary id and the first row bearing each id has a name. |
| Reconstruct.ExtractFailsOnMissingPrimaryId | app/src/main/java/crud/mapper/ServiceResultExtractor.java:33 | A row without a readable primary id makes the whole extraction fail. |
| Reconstruct.ReadableNames | app/src/main/java/crud/mapper/ProviderResultExtractor.java:36-41 | In readable rows, every primary id has a first name. |
| Reconstruct.FirstNameIsFirstRow | app/src/main/java/crud/mapper/ServiceResultExtractor.java:36-41 | A root's name comes from the first row bearing its id. Later rows for the same id do not rename it. |
| Reconstruct.ExtractRoots | app/src/main/java/crud/mapper/ProviderResultExtractor.java:30-41 | The result's keys are exactly the primary ids in the rows. Their count is the number of distinct ids, and each root has the primary kind, its key as id, the first row's name, and is not deleted. |
| Reconstruct.RelatedIdsFromRows | app/src/main/java/crud/mapper/ServiceResultExtractor.java:45-52 | In the reference description, an id is among a root's related ids iff some row relates that root to it. |
| Reconstruct.SecondariesPerRow | app/src/main/java/crud/mapper/ServiceResultExtractor.java:54-66 | A related entity gets one secondary per row carrying the root, that related id and a secondary pair, with no dedup. Each is a bare entity of the primary kind. |
| Reconstruct.ExtractRelated | app/src/main/java/crud/mapper/ProviderResultExtractor.java:43-66 | Each root's related list has distinct ids, exactly the ids the rows relate to it, and each element has the other kind. Each element's own list holds the secondaries of the rows for that pair. |
| Reconstruct.NestingAtMostTwoLevels | app/src/main/java/crud/mapper/ProviderResultExtractor.java:54-63 | Secondaries never have related entities of their own: the graph is at most two levels deep. |
| Reconstruct.DepthBoundsNesting | app/src/main/java/crud/repository/ServiceRepository.java:188-243 | For rows that carry only the primary column pair, roots have no related entities at SHALLOW. For rows without a secondary pair, related entities have none below DEEP. The SHALLOW query as written selects unaliased `id, name`, so its actual rows fail extraction instead. |
| ResultExtractors.ExtractData | app/src/main/java/crud/mapper/ProviderResultExtractor.java:29-70 | The imperative loop, stopping at the first unreadable primary column, computes the fold. It succeeds iff the rows are readable, and then returns the reference description. |
| ResultExtractors.ExtractionThroughColumns | app/src/main/java/crud/mapper/ServiceResultExtractor.java:29-69 | Read through any column labels: no rows give an empty result, and an unreadable primary id gives a failure. On success the keys are the readable primary ids, roots carry their kind and id, related ids are distinct and of the other kind, and the result is the reference description. |
| ResultExtractors.ExtractProviders | app/src/main/java/crud/mapper/ProviderResultExtractor.java:29-69 | The provider extractor: empty rows give an empty map, and a row without `provider_id` fails. On success the keys are the `provider_id` values, providers hold distinct services, and the result is the reference description. |
| ResultExtractors.ExtractServices | app/src/main/java/crud/mapper/ServiceResultExtractor.java:29-69 | The same for services keyed by `service_id`, with distinct providers. |
| JoinTable.Select | app/src/main/java/crud/repository/ProviderRepository.java:140-143 | The current-ids query returns x iff the table holds the row linking the owner to x, and returns x once per copy of that row in the table. |
| JoinTable.DeleteLink | app/src/main/java/crud/repository/ProviderRepository.java:158-161 | One DELETE removes every copy of its row and leaves every other row's count unchanged. |
| JoinTable.DeleteAll | app/src/main/java/crud/repository/ServiceRepository.java:153-158 | The DELETE loop drops exactly the owner's rows whose partner is in the removal list. Every other row keeps its count. |
| JoinTable.LinksFor | app/src/main/java/crud/repository/ProviderRepository.java:165-170 | The rows the INSERT loop writes: one per id, in order, each linking the owner to the id at the same position. |
| JoinTable.LinksForMultiset | app/src/main/java/crud/repository/ProviderRepository.java:165-170 | The INSERT loop adds rows of the owner only, one per occurrence of each id. |
| JoinTable.ToRemove | app/src/main/java/crud/repository/ProviderRepository.java:146-148 | `servicesToRemove` holds exactly the current ids the provider does not contain, each occurrence kept, so as often as the table links the provider to it: a sub-multiset of the current ids. |
| JoinTable.ToAdd | app/src/main/java/crud/repository/ProviderRepository.java:151-154 | `servicesToAdd` holds exactly the desired ids that are not current, each occurrence kept. |
| JoinTable.ToRemoveEmpty | app/src/main/java/crud/repository/ServiceRepository.java:142-144 | Nothing is removed iff every current id is still listed. |
| JoinTable.ToAddEmpty | app/src/main/java/crud/repository/ServiceRepository.java:147-150 | Nothing is added iff every desired id is already current. |
| JoinTable.DiffDisjoint | app/src/main/java/crud/repository/ProviderRepository.java:146-154 | No id is both removed and added. An id both current and desired is neither. |
| JoinTable.DiffSetEquation | app/src/main/java/crud/repository/ServiceRepository.java:142-150 | The current ids minus the removals, plus the additions, are exactly the desired ids as a set. |
| JoinTable.Sync | app/src/main/java/crud/repository/ProviderRepository.java:140-170 | Steps 2 to 6 of `update`: read, diff, delete, insert. Characterised by `JoinTable.SyncCount`, `JoinTable.SyncReachesDesired` and `JoinTable.SyncKeepsOtherOwners`. |
| JoinTable.SyncCount | app/src/main/java/crud/repository/ProviderRepository.java:140-170 | After the update, other owners' rows keep their count. A removed partner's row is left with only its inserted copies, and any other owned row gains its inserted copies. |
| JoinTable.SyncReachesDesired | app/src/main/java/crud/repository/ProviderRepository.java:157-170 | After the deletes and inserts, the owner's rows name exactly the entity's related ids. |
| JoinTable.SyncKeepsOtherOwners | app/src/main/java/crud/repository/ServiceRepository.java:153-166 | Rows of other owners keep their number of copies. |
| JoinTable.SyncNoDuplicates | app/src/main/java/crud/repository/ServiceRepository.java:136-166 | When the table is duplicate-free and the desired related ids are distinct, the updated table is duplicate-free. |
| JoinTable.SyncRepeatsDuplicateIds | app/src/main/java/crud/repository/ServiceRepository.java:161-166 | An id listed twice and not yet stored is inserted twice, since the INSERT loop does not dedup. |
| JoinTable.SyncIdempotent | app/src/main/java/crud/repository/ProviderRepository.java:146-154 | Diffing the updated table against the same entity gives empty add and remove lists. |
| JoinTable.SyncTwice | app/src/main/java/crud/repository/ServiceRepository.java:142-166 | A second update with the same entity leaves the table as the first left it. |
| JoinTable.SaveLinks | app/src/main/java/crud/repository/ProviderRepository.java:60-65 | `save` appends one `(newId, service.id)` row per service, in list order, after the existing rows. |
| JoinTable.SaveReadBack | app/src/main/java/crud/repository/ServiceRepository.java:56-61 | When no row used the key before, the saved rows read back as the related ids, each as often as it is listed, and an update with the saved entity has nothing to do. With the SELECT in table order they come back in list order. |
| ProviderRepository.Save | app/src/main/java/crud/repository/ProviderRepository.java:46-69 | The provider comes back under the generated key. The table gains one `(newId, service.id)` row per service, in order. Under a fresh key they read back as its service ids, each as often as it is listed (in list order, with the SELECT in table order). |
| ProviderRepository.Update | app/src/main/java/crud/repository/ProviderRepository.java:132-173 | The provider's rows afterwards name exactly its services, and other providers' rows keep their counts. No duplicates arise when the services are distinct, and a repeated update changes nothing. |
| ProviderRepository.FindAll | app/src/main/java/crud/repository/ProviderRepository.java:77-92 | DEEP fails with `UnsupportedDepth` before extraction. Otherwise the result is the provider extraction's. At SHALLOW, for rows that carry only the primary column pair, providers have no services. For rows without a secondary pair, services have no providers. |
| ProviderRepository.FindById | app/src/main/java/crud/repository/ProviderRepository.java:102-119 | No depth is refused, so only extraction can fail. When every row carries the requested id, the result holds that provider alone. Below DEEP, for rows without a secondary pair, services list no providers. |
| ServiceRepository.Save | app/src/main/java/crud/repository/ServiceRepository.java:42-65 | The service comes back under the generated key. The table gains one `(provider.id, newId)` row per provider, in order. Under a fresh key they read back as its provider ids, each as often as it is listed (in list order, with the SELECT in table order). |
| ServiceRepository.Update | app/src/main/java/crud/repository/ServiceRepository.java:128-169 | The service's rows afterwards name exactly its providers, and other services' rows keep their counts. No duplicates arise when the providers are distinct, and a repeated update changes nothing. |
| ServiceRepository.FindAll | app/src/main/java/crud/repository/ServiceRepository.java:73-88 | DEEP fails with `UnsupportedDepth` before extraction. Otherwise the result is the service extraction's, with the same nesting bounds. |
| ServiceRepository.FindById | app/src/main/java/crud/repository/ServiceRepository.java:98-115 | No depth is refused, so only extraction can fail. When every row carries the requested id, the result holds that service alone. |
| Scenarios.DiffExample | app/src/main/java/crud/repository/ProviderRepository.java:146-154 | Current services 1, 2, 3 and desired services 2, 3, 4: remove `[1]`, add `[4]`. |
| Scenarios.MediumExample | app/src/main/java/crud/mapper/ProviderResultExtractor.java:32-52 | Rows (1,A,10,X), (1,A,11,Y), (2,B,-,-) give provider 1 with services 10 and 11, and provider 2 with none. |
| Scenarios.MixedCaseDeepToken | app/src/main/java/crud/utils/DepthLevel.java:40-47 | "Deep" parses to DEEP. The single-lookup switch accepts it and the bulk switch refuses it. |
| Scenarios.DeepRowsRepeatSecondary | app/src/main/java/crud/mapper/ProviderResultExtractor.java:54-63 | Two identical DEEP rows list the service once, but its secondary provider twice. |

## Left out

- SQL text and JDBC: the queries are opaque. A fetch receives the rows its query returns. Bugs in the SQL text are not modelled; among them, and not an exhaustive list:
  - the wrong table name in ProviderRepository.java:210;
  - `WHERE AND` in ProviderRepository.java:277;
  - DEEP's filter on `s.id` in ProviderRepository.java:242;
  - the shallow queries' unaliased `id, name` columns;
  - the DEEP queries select `ps.id`, `ps.name` and filter `ps.isDeleted` on the join-table alias `ps` (ProviderRepository.java:231-232 and 245, ServiceRepository.java:230-231 and 242), although the INSERT statements write only `provider_id` and `service_id` to that table;
  - ProviderRepository's DEEP query joins `ps` on `p.id` (ProviderRepository.java:240), so its secondary rows would come from the provider's own links.
  As written, no query feeds the modelled secondary path with the rows it expects; the model describes what the extractors do with such rows.
- SQL NULL: `getLong` returns 0 for a NULL column rather than throwing. The model treats an unreadable column as absent and does not model NULL values.
- Java nulls: the model's ids are always integers and its lists always sequences, so `Save` and `Update` always succeed. In Java they can throw:
  - `@NoArgsConstructor` (ProviderEntity.java:18, ServiceEntity.java:22) leaves the related list null;
  - `save` then throws a `NullPointerException` at ProviderRepository.java:60 (ServiceRepository.java:56);
  - `update` throws at ProviderRepository.java:147 and 151 (ServiceRepository.java:143 and 147);
  - a related entity with a null id makes `containsService` throw at ProviderEntity.java:65.
- JoinTable.Select: the SELECT returns the owner's rows in table order, which is insertion order. The queries at ProviderRepository.java:140-143 and ServiceRepository.java:136-139 have no `ORDER BY`, so the database promises no order; only the multiset of ids read back is guaranteed.
- JoinTable.SaveReadBack: the in-order read-back rests on the SELECT order above. The multiset clause is what holds for any order.
- ProviderRepository.Save: the in-order read-back rests on the SELECT order above. The multiset clause is what holds for any order.
- ServiceRepository.Save: the in-order read-back rests on the SELECT order above. The multiset clause is what holds for any order.
- JoinTable.SyncRepeatsDuplicateIds: assumes `provider_service` has no uniqueness constraint. No schema is part of this model. With a key on `(provider_id, service_id)`, the second INSERT would throw, and `@Transactional` would roll back the update.
- Generated keys: the key `save` obtains from the database is a parameter. The `INSERT INTO providers/services (name)` statement itself is not modelled.
- ProviderRepository.Update: the `UPDATE ... SET name` statement (step 1) is not modelled. Only the join-table steps are.
- ServiceRepository.Update: the `UPDATE ... SET name` statement (step 1) is not modelled. Only the join-table steps are.
- ProviderRepository.FindById: the result is the extracted map. The `.get(0)` that picks one element from an unordered collection, and its behaviour on an empty list, are not modelled.
- ServiceRepository.FindById: the result is the extracted map. The `.get(0)` and its behaviour on an empty list are not modelled.
- ResultExtractors.ExtractProviders: the cast at ProviderResultExtractor.java:69 always throws `ClassCastException`, since `HashMap.values()` is not a `List`. The model does not model that throw: its `Success` is the map of roots the loop has built before it.
- ResultExtractors.ExtractServices: the cast at ServiceResultExtractor.java:69 always throws `ClassCastException` in the same way. Its `Success` is likewise the map the loop has built before the throw.
- Soft delete: `delete` only issues an UPDATE of `isDeleted`, and the deleted filter lives in SQL. The `deleted` field is carried but never set.
- Depth.EqualsString: case folding is ASCII only. Java's `equalsIgnoreCase` also matches other spellings (for example `"ſhallow"` equals `"shallow"` ignoring case), which the model does not.
- Depth.FromString: case folding is ASCII only. Java's `equalsIgnoreCase` also folds other characters, which the model does not.
- Integer width: ids are unbounded integers, not 64-bit `Long`s. No arithmetic is done on them, so no wrap-around arises.
- Entities.RemoveRelated: removes the first structurally equal element, while the Java `List.remove` compares by reference, since neither entity overrides `equals`. So `removeServiceFromProvider` (ProviderController.java:65-74), which removes a freshly fetched `ServiceEntity` from a freshly fetched provider, removes nothing in the source, where the model would remove the equal element. Even a removal would not persist: `updateProvider` copies only the name onto a freshly read provider (ProviderService.java:91-95). The extractor's mutation of shared objects is not modelled either.
- Transactions and concurrency: `@Transactional` and concurrent updates are not modelled. Each operation is a pure function of the table it is given.
- Service, controller, application bootstrap and API documentation classes: these are thin delegation and configuration, outside this model.
- No caller in the source parses a depth token: `DepthLevel.fromString`/`equalsString` are modelled for their own contracts. No depth reaches the repositories from a request either. ProviderController.java:31-39 calls `getAllProviders()`/`getProviderById(id)`, but ProviderService.java:53 and :67 take a depth. ServiceService.java:26-33 calls `findAll()`/`findById(id)`, but ServiceRepository.java:73 and :98 take a depth. So, as written, those calls match no declared method. `updateProvider` reads at MEDIUM (ProviderService.java:91).

=== FILE: depth.dfy ===
/** The depth policy: the `DepthLevel` enum with its case-insensitive token
    parsing, and the repositories' dispatch on depth (bulk fetches stop at
    MEDIUM, single lookups accept every level). */
module Depth {
  import opened Wrappers

  /** Declared in this order, which is also the order `values()` walks. */
  datatype DepthLevel = Shallow | Medium | Deep

  datatype DepthError =
    | UnknownDepthLevel(value: string)      // thrown by `fromString`
    | UnsupportedDepth(depth: DepthLevel)   // thrown by the repositories' `default:` branch

  const Levels: seq<DepthLevel> := [Shallow, Medium, Deep]

  /** `getValue`: the token the level was constructed with, a non-empty
      lower-case word. */
  function Value(d: DepthLevel): (s: string)
    ensures |s| > 0 && forall i :: 0 <= i < |s| ==> 'a' <= s[i] <= 'z'
  {
    match d
    case Shallow => "shallow"
    case Medium => "medium"
    case Deep => "deep"
  }

  /** ASCII lower-case folding; every other character is left alone. */
  function ToLower(c: char): char {
    if 'A' <= c <= 'Z' then (c as int + 32) as char else c
  }

  /** `String.equalsIgnoreCase`, with ASCII folding only. */
  predicate EqualsIgnoreCase(a: string, b: string) {
    |a| == |b| && forall i :: 0 <= i < |a| ==> ToLower(a[i]) == ToLower(b[i])
  }

  /** `equalsString`: the level's token matches `v` up to case, that is, `v`
      folded to lower case is the token. */
  predicate EqualsString(d: DepthLevel, v: string): (b: bool)
    ensures b <==> |v| == |Value(d)| && forall i :: 0 <= i < |v| ==> ToLower(v[i]) == Value(d)[i]
  {
    EqualsIgnoreCase(Value(d), v)
  }

  /** The loop of `fromString`: the first level in `levels` whose token matches. */
  function FirstMatch(levels: seq<DepthLevel>, v: string): (r: Option<DepthLevel>)
    ensures r.Some? ==> r.value in levels && EqualsString(r.value, v)
    ensures r.None? ==> forall d :: d in levels ==> !EqualsString(d, v)
  {
    if |levels| == 0 then None
    else if EqualsString(levels[0], v) then Some(levels[0])
    else FirstMatch(levels[1..], v)
  }

  /** `fromString`: the level whose token equals `v` ignoring case, or the
      `IllegalArgumentException` naming the unknown value. */
  function FromString(v: string): (r: Result<DepthLevel, DepthError>)
    ensures r.Success? <==> exists d :: EqualsString(d, v)
    ensures forall d :: EqualsString(d, v) ==> r == Success(d)
    ensures r.Failure? ==> r.error == UnknownDepthLevel(v)
  {
    match FirstMatch(Levels, v)
    case Some(d) => Success(d)
    case None => Failure(UnknownDepthLevel(v))
  }

  /** The three tokens stay pairwise distinct under case folding, so no string
      matches two levels. */
  lemma {:induction false} AtMostOneLevelMatches(d1: DepthLevel, d2: DepthLevel, v: string)
    requires EqualsString(d1, v) && EqualsString(d2, v)
    ensures d1 == d2
  {
    assert |Value(d1)| == |v| == |Value(d2)|;
  }

  /** `getValue` yields a lower-case token, and `fromString` maps it back. */
  lemma {:induction false} ValueRoundTrip(d: DepthLevel)
    ensures FromString(Value(d)) == Success(d)
  {
    assert EqualsString(d, Value(d));
  }

  /** `d.equalsString(v)` holds exactly when `fromString(v)` returns `d`. */
  lemma {:induction false} EqualsStringIffFromString(d: DepthLevel, v: string)
    ensures EqualsString(d, v) <==> FromString(v) == Success(d)
  {
    if FromString(v) == Success(d) {
      assert FirstMatch(Levels, v) == Some(d);
    }
  }

  /** Parsing ignores case: two spellings that fold to the same string parse
      to the same level (or both fail). */
  lemma {:induction false} FromStringIgnoresCase(v: string, w: string)
    requires EqualsIgnoreCase(v, w)
    ensures FromString(v).Success? <==> FromString(w).Success?
    ensures FromString(v).Success? ==> FromString(v) == FromString(w)
  {
    forall d | EqualsString(d, v)
      ensures EqualsString(d, w)
    {
      assert forall i :: 0 <= i < |v| ==> ToLower(Value(d)[i]) == ToLower(v[i]) == ToLower(w[i]);
    }
    forall d | EqualsString(d, w)
      ensures EqualsString(d, v)
    {
      assert forall i :: 0 <= i < |w| ==> ToLower(Value(d)[i]) == ToLower(w[i]) == ToLower(v[i]);
    }
  }

  /** The switch of `findAll`: SHALLOW and MEDIUM select a query, everything
      else reaches `default:` and throws. */
  function FindAllDepth(d: DepthLevel): (r: Result<DepthLevel, DepthError>)
    ensures r.Success? <==> d in {Shallow, Medium}
    ensures r.Success? ==> r.value == d
    ensures r.Failure? ==> r.error == UnsupportedDepth(d)
  {
    match d
    case Shallow => Success(Shallow)
    case Medium => Success(Medium)
    case _ => Failure(UnsupportedDepth(d))
  }

  /** The switch of `findById`: each of the three levels has its own query, so
      the `default:` branch is never taken. */
  function FindByIdDepth(d: DepthLevel): (r: Result<DepthLevel, DepthError>)
    ensures r.Success? && r.value == d
  {
    match d
    case Shallow => Success(Shallow)
    case Medium => Success(Medium)
    case Deep => Success(Deep)
  }

  /** A token naming DEEP in any case resolves for a single lookup but is
      refused for a bulk fetch. */
  lemma {:induction false} DeepTokenOnlyForSingleLookup(v: string)
    requires EqualsString(Deep, v)
    ensures FromString(v) == Success(Deep)
    ensures FindByIdDepth(FromString(v).value) == Success(Deep)
    ensures FindAllDepth(FromString(v).value) == Failure(UnsupportedDepth(Deep))
  {
    EqualsStringIffFromString(Deep, v);
  }
}

=== FILE: entities.dfy ===
/** Providers and services as immutable values.

    `ProviderEntity` and `ServiceEntity` are structurally identical: an id, a
    name, the soft-delete flag inherited from `BaseEntity`, and a list of
    entities of the other kind (`services` on a provider, `providers` on a
    service). One datatype with a kind tag stands for both, and the list
    helpers below model both classes' helpers: `addService`/`addProvider`,
    `containsService`/`containsProvider`, `getService`/`getProvider` and
    `removeService`/`removeProvider`. Java object identity is replaced by
    structural equality of values. */
module Entities {
  import opened Wrappers

  datatype Kind = ProviderKind | ServiceKind {
    /** The kind held in this kind's related list. */
    function Other(): Kind {
      match this
      case ProviderKind => ServiceKind
      case ServiceKind => ProviderKind
    }
  }

  datatype Entity = Entity(kind: Kind, id: int, name: string, deleted: bool, related: seq<Entity>)

  /** The ids of a list of entities, position by position. */
  function Ids(s: seq<Entity>): (r: seq<int>)
    ensures |r| == |s|
    ensures forall i :: 0 <= i < |s| ==> r[i] == s[i].id
  {
    seq(|s|, i requires 0 <= i < |s| => s[i].id)
  }

  /** No two elements of `s` share an id. */
  predicate DistinctIds(s: seq<Entity>) {
    forall i, j :: 0 <= i < j < |s| ==> s[i].id != s[j].id
  }

  /** The `(id, name)` constructor: not deleted, nothing related yet. */
  function New(kind: Kind, id: int, name: string): (e: Entity)
    ensures e.kind == kind && e.id == id && e.name == name && !e.deleted
    ensures forall x :: !ContainsRelated(e, x)
  {
    Entity(kind, id, name, false, [])
  }

  /** `containsService` / `containsProvider`: some related element has this id. */
  function ContainsRelated(e: Entity, id: int): (b: bool)
    ensures b <==> exists i :: 0 <= i < |e.related| && e.related[i].id == id
  {
    id in Ids(e.related)
  }

  /** Position of the first element of `s` whose id is `id`. */
  function FirstIndex(s: seq<Entity>, id: int): (r: Option<nat>)
    ensures r.Some? ==> r.value < |s| && s[r.value].id == id
    ensures r.Some? ==> forall j :: 0 <= j < r.value ==> s[j].id != id
    ensures r.None? ==> forall j :: 0 <= j < |s| ==> s[j].id != id
  {
    if |s| == 0 then None
    else if s[0].id == id then Some(0)
    else match FirstIndex(s[1..], id)
      case None => None
      case Some(k) => Some(k + 1)
  }

  /** `getService` / `getProvider`: the first related element with this id. */
  function GetRelated(e: Entity, id: int): (r: Option<Entity>)
    ensures r.Some? <==> ContainsRelated(e, id)
    ensures r.Some? ==> r.value.id == id
    ensures r.Some? ==> exists k :: 0 <= k < |e.related| && e.related[k] == r.value
                          && forall j :: 0 <= j < k ==> e.related[j].id != id
  {
    match FirstIndex(e.related, id)
    case None => None
    case Some(k) => Some(e.related[k])
  }

  /** `addService` / `addProvider`: append at the end, with no duplicate check. */
  function AddRelated(e: Entity, x: Entity): (r: Entity)
    ensures r.kind == e.kind && r.id == e.id && r.name == e.name && r.deleted == e.deleted
    ensures |r.related| == |e.related| + 1
    ensures r.related[..|e.related|] == e.related && r.related[|e.related|] == x
    ensures ContainsRelated(r, x.id)
  {
    e.(related := e.related + [x])
  }

  /** Appending keeps the related ids distinct exactly when the new id was absent:
      `addService` itself never deduplicates. */
  lemma AddRelatedDistinct(e: Entity, x: Entity)
    requires DistinctIds(e.related)
    ensures DistinctIds(AddRelated(e, x).related) <==> !ContainsRelated(e, x.id)
  {
    var r := AddRelated(e, x).related;
    if ContainsRelated(e, x.id) {
      var i :| 0 <= i < |e.related| && e.related[i].id == x.id;
      assert r[i].id == r[|e.related|].id;
    }
  }

  /** `List.remove(Object)`: drop the first element equal to `x`, if any. */
  function RemoveFirst(s: seq<Entity>, x: Entity): seq<Entity> {
    if |s| == 0 then s
    else if s[0] == x then s[1..]
    else [s[0]] + RemoveFirst(s[1..], x)
  }

  /** When `k` is the first position holding `x`, `RemoveFirst` drops exactly
      that position and keeps the others in order. */
  lemma {:induction false} RemoveFirstAt(s: seq<Entity>, x: Entity, k: nat)
    requires k < |s| && s[k] == x
    requires forall j :: 0 <= j < k ==> s[j] != x
    ensures RemoveFirst(s, x) == s[..k] + s[k + 1..]
  {
    if k > 0 {
      RemoveFirstAt(s[1..], x, k - 1);
      assert s[..k] == [s[0]] + s[1..][..k - 1];
      assert s[k + 1..] == s[1..][k..];
    }
  }

  /** Without an element equal to `x`, `RemoveFirst` changes nothing. */
  lemma {:induction false} RemoveFirstAbsent(s: seq<Entity>, x: Entity)
    requires forall j :: 0 <= j < |s| ==> s[j] != x
    ensures RemoveFirst(s, x) == s
  {
    if |s| > 0 {
      RemoveFirstAbsent(s[1..], x);
      assert s == [s[0]] + s[1..];
    }
  }

  /** `RemoveFirst` takes away exactly one occurrence of `x`, when there is one. */
  lemma {:induction false} RemoveFirstMultiset(s: seq<Entity>, x: Entity)
    ensures multiset(RemoveFirst(s, x)) == multiset(s) - multiset{x}
  {
    if |s| == 0 {
    } else {
      assert s == [s[0]] + s[1..];
      if s[0] != x {
        RemoveFirstMultiset(s[1..], x);
      }
    }
  }

  /** What `List.remove(Object)` promises of `r`: `s` untouched when no
      element equals `x`, and otherwise `s` without the element at the first
      position holding `x`; in both cases one occurrence of `x` fewer. */
  predicate RemovesFirst(s: seq<Entity>, x: Entity, r: seq<Entity>) {
    && ((forall j :: 0 <= j < |s| ==> s[j] != x) ==> r == s)
    && (forall k :: 0 <= k < |s| && s[k] == x && (forall j :: 0 <= j < k ==> s[j] != x) ==>
          r == s[..k] + s[k + 1..])
    && multiset(r) == multiset(s) - multiset{x}
  }

  /** `RemoveFirst` does what `List.remove(Object)` promises. */
  lemma RemoveFirstSpec(s: seq<Entity>, x: Entity)
    ensures RemovesFirst(s, x, RemoveFirst(s, x))
  {
    RemoveFirstMultiset(s, x);
    if forall j :: 0 <= j < |s| ==> s[j] != x {
      RemoveFirstAbsent(s, x);
    }
    forall k | 0 <= k < |s| && s[k] == x && (forall j :: 0 <= j < k ==> s[j] != x)
      ensures RemoveFirst(s, x) == s[..k] + s[k + 1..]
    {
      RemoveFirstAt(s, x, k);
    }
  }

  /** `removeService` / `removeProvider`: at most one element goes, the first
      one equal to `x`, and the others keep their order. */
  function RemoveRelated(e: Entity, x: Entity): (r: Entity)
    ensures r.kind == e.kind && r.id == e.id && r.name == e.name && r.deleted == e.deleted
    ensures RemovesFirst(e.related, x, r.related)
  {
    RemoveFirstSpec(e.related, x);
    e.(related := RemoveFirst(e.related, x))
  }
}

=== FILE: extractors.dfy ===
/** The two result extractors: the shared reconstruction read through each
    extractor's column labels, and the extraction loop written the way
    `extractData` runs it, row after row with an early exit when a primary
    column cannot be read. */
module ResultExtractors {
  import opened Wrappers
  import opened Entities
  import opened Rows
  import opened Reconstruct
  import opened Depth

  /** Why a repository fetch fails: the depth switch's `default:` branch, or
      the extractor. */
  datatype FetchError =
    | DepthFailure(depthError: DepthError)
    | ExtractFailure(extractError: ExtractError)

  /** `extractData`'s `while (rs.next())` loop: a forward pass that stops at the
      first row whose primary columns cannot be read. */
  method ExtractData(kind: Kind, rows: seq<FlatRow>) returns (r: Result<map<int, Entity>, ExtractError>)
    ensures r == Extract(kind, rows)
    ensures r.Success? <==> Readable(rows)
    ensures r.Success? ==> r.value == Expected(kind, rows)
  {
    ExtractMatchesReference(kind, rows);
    var acc: map<int, Entity> := map[];
    var i := 0;
    while i < |rows|
      invariant 0 <= i <= |rows|
      invariant Extract(kind, rows[..i]) == Success(acc)
    {
      assert rows[..i + 1][..i] == rows[..i];
      match Step(kind, acc, rows[i])
      case Failure(e) =>
        FailureIsFinal(kind, rows, i + 1, e);
        return Failure(e);
      case Success(next) =>
        acc := next;
      i := i + 1;
    }
    assert rows[..i] == rows;
    r := Success(acc);
  }

  /** What an extraction through a column layout promises, in terms of the
      rows as JDBC returns them. */
  lemma ExtractionThroughColumns(kind: Kind, cols: Columns, rs: seq<ResultRow>)
    ensures var r := Extract(kind, ReadRows(cols, rs));
      && (|rs| == 0 ==> r == Success(map[]))
      && ((exists i :: 0 <= i < |rs| && GetLong(rs[i], cols.primaryId).None?) ==> r.Failure?)
      && (r.Success? ==> forall id :: id in r.value <==> exists i :: 0 <= i < |rs| && GetLong(rs[i], cols.primaryId) == Some(id))
      && (r.Success? ==> forall id :: id in r.value ==>
            && r.value[id].kind == kind && r.value[id].id == id
            && DistinctIds(r.value[id].related)
            && forall k :: 0 <= k < |r.value[id].related| ==> r.value[id].related[k].kind == kind.Other())
      && (r.Success? ==> r.value == Expected(kind, ReadRows(cols, rs)))
  {
    var rows := ReadRows(cols, rs);
    ExtractMatchesReference(kind, rows);
    if exists i :: 0 <= i < |rs| && GetLong(rs[i], cols.primaryId).None? {
      var i :| 0 <= i < |rs| && GetLong(rs[i], cols.primaryId).None?;
      ExtractFailsOnMissingPrimaryId(kind, rows, i);
    } else if Extract(kind, rows).Success? {
      ExtractRoots(kind, rows);
      ExtractRelated(kind, rows);
    }
  }

  /** `ProviderResultExtractor.extractData`: providers keyed by `provider_id`,
      each with its distinct services; at DEEP depth each service also lists
      the providers of its `provider_service_*` columns. */
  function ExtractProviders(rs: seq<ResultRow>): (r: Result<map<int, Entity>, ExtractError>)
    ensures |rs| == 0 ==> r == Success(map[])
    ensures (exists i :: 0 <= i < |rs| && GetLong(rs[i], "provider_id").None?) ==> r.Failure?
    ensures r.Success? ==> forall id :: id in r.value <==> exists i :: 0 <= i < |rs| && GetLong(rs[i], "provider_id") == Some(id)
    ensures r.Success? ==> forall id :: id in r.value ==>
              && r.value[id].kind == ProviderKind && r.value[id].id == id
              && DistinctIds(r.value[id].related)
              && forall k :: 0 <= k < |r.value[id].related| ==> r.value[id].related[k].kind == ServiceKind
    ensures r.Success? ==> r.value == Expected(ProviderKind, ReadRows(ProviderColumns, rs))
  {
    ExtractionThroughColumns(ProviderKind, ProviderColumns, rs);
    Extract(ProviderKind, ReadRows(ProviderColumns, rs))
  }

  /** `ServiceResultExtractor.extractData`: services keyed by `service_id`, each
      with its distinct providers; at DEEP depth each provider also lists the
      services of its `provider_service_*` columns. */
  function ExtractServices(rs: seq<ResultRow>): (r: Result<map<int, Entity>, ExtractError>)
    ensures |rs| == 0 ==> r == Success(map[])
    ensures (exists i :: 0 <= i < |rs| && GetLong(rs[i], "service_id").None?) ==> r.Failure?
    ensures r.Success? ==> forall id :: id in r.value <==> exists i :: 0 <= i < |rs| && GetLong(rs[i], "service_id") == Some(id)
    ensures r.Success? ==> forall id :: id in r.value ==>
              && r.value[id].kind == ServiceKind && r.value[id].id == id
              && DistinctIds(r.value[id].related)
              && forall k :: 0 <= k < |r.value[id].related| ==> r.value[id].related[k].kind == ProviderKind
    ensures r.Success? ==> r.value == Expected(ServiceKind, ReadRows(ServiceColumns, rs))
  {
    ExtractionThroughColumns(ServiceKind, ServiceColumns, rs);
    Extract(ServiceKind, ReadRows(ServiceColumns, rs))
  }
}

=== FILE: join_table.dfy ===
/** The `provider_service` join table and what the repositories do to it.

    The table is a sequence of rows. `ProviderRepository` works on the rows of
    one provider (it owns the `provider_id` column and reads `service_id`),
    `ServiceRepository` on the rows of one service; `Side` says which. The
    update path reads the owner's current partner ids, computes the ids to
    delete and to insert, and issues one DELETE and one INSERT per id; `save`
    issues one INSERT per related entity. */
module JoinTable {
  import opened Entities

  /** One row of `provider_service`. */
  datatype Link = Link(providerId: int, serviceId: int)

  datatype Side = ProviderSide | ServiceSide

  /** The column the repository filters on. */
  function Owner(side: Side, l: Link): int {
    match side
    case ProviderSide => l.providerId
    case ServiceSide => l.serviceId
  }

  /** The column the repository reads. */
  function Partner(side: Side, l: Link): int {
    match side
    case ProviderSide => l.serviceId
    case ServiceSide => l.providerId
  }

  function MakeLink(side: Side, owner: int, partner: int): (l: Link)
    ensures Owner(side, l) == owner && Partner(side, l) == partner
  {
    match side
    case ProviderSide => Link(owner, partner)
    case ServiceSide => Link(partner, owner)
  }

  /** No row occurs twice. */
  predicate NoDuplicateLinks(table: seq<Link>) {
    forall l | l in table :: multiset(table)[l] <= 1
  }

  // ---------------------------------------------------------------------
  // The statements
  // ---------------------------------------------------------------------

  /** `SELECT <partner> FROM provider_service WHERE <owner> = ?`, in table order:
      one id per matching row, so a row stored twice is read twice. */
  function Select(side: Side, table: seq<Link>, owner: int): (r: seq<int>)
    ensures forall x :: x in r <==> MakeLink(side, owner, x) in table
    ensures forall x {:trigger multiset(r)[x]} :: multiset(r)[x] == multiset(table)[MakeLink(side, owner, x)]
  {
    if |table| == 0 then []
    else
      assert table == [table[0]] + table[1..];
      LinkOfColumns(side, table[0]);
      (if Owner(side, table[0]) == owner then [Partner(side, table[0])] else []) + Select(side, table[1..], owner)
  }

  /** One `DELETE FROM provider_service WHERE provider_id = ? AND service_id = ?`:
      every row equal to `link` goes. */
  function DeleteLink(table: seq<Link>, link: Link): (r: seq<Link>)
    ensures forall l :: multiset(r)[l] == if l == link then 0 else multiset(table)[l]
  {
    if |table| == 0 then []
    else
      assert table == [table[0]] + table[1..];
      (if table[0] == link then [] else [table[0]]) + DeleteLink(table[1..], link)
  }

  /** The DELETE loop: one statement per id, in order. */
  function DeleteAll(side: Side, table: seq<Link>, owner: int, ids: seq<int>): (r: seq<Link>)
    ensures forall l :: multiset(r)[l] ==
              if Owner(side, l) == owner && Partner(side, l) in ids then 0 else multiset(table)[l]
    decreases |ids|
  {
    if |ids| == 0 then table
    else
      var r := DeleteAll(side, DeleteLink(table, MakeLink(side, owner, ids[0])), owner, ids[1..]);
      assert forall l :: Owner(side, l) == owner && Partner(side, l) in ids ==>
               l == MakeLink(side, owner, ids[0]) || Partner(side, l) in ids[1..];
      r
  }

  /** A row is determined by its owner and partner columns. */
  lemma LinkOfColumns(side: Side, l: Link)
    ensures MakeLink(side, Owner(side, l), Partner(side, l)) == l
  {
  }

  /** The rows inserted for `ids`, one per id, in order. */
  function LinksFor(side: Side, owner: int, ids: seq<int>): (r: seq<Link>)
    ensures |r| == |ids|
    ensures forall i :: 0 <= i < |ids| ==> r[i] == MakeLink(side, owner, ids[i])
  {
    seq(|ids|, i requires 0 <= i < |ids| => MakeLink(side, owner, ids[i]))
  }

  lemma {:induction false} LinksForCount(side: Side, owner: int, ids: seq<int>, l: Link)
    ensures multiset(LinksFor(side, owner, ids))[l] ==
              if Owner(side, l) == owner then multiset(ids)[Partner(side, l)] else 0
    decreases |ids|
  {
    if |ids| > 0 {
      var n := |ids| - 1;
      LinksForCount(side, owner, ids[..n], l);
      assert ids == ids[..n] + [ids[n]];
      assert LinksFor(side, owner, ids) == LinksFor(side, owner, ids[..n]) + [MakeLink(side, owner, ids[n])];
      LinkOfColumns(side, l);
    }
  }

  /** Every inserted row belongs to `owner`, one row per occurrence of its id. */
  lemma LinksForMultiset(side: Side, owner: int, ids: seq<int>)
    ensures forall l :: multiset(LinksFor(side, owner, ids))[l] ==
              if Owner(side, l) == owner then multiset(ids)[Partner(side, l)] else 0
  {
    forall l {
      LinksForCount(side, owner, ids, l);
    }
  }

  lemma {:induction false} SelectAppend(side: Side, a: seq<Link>, b: seq<Link>, owner: int)
    ensures Select(side, a + b, owner) == Select(side, a, owner) + Select(side, b, owner)
    decreases |a|
  {
    if |a| > 0 {
      assert (a + b)[1..] == a[1..] + b;
      SelectAppend(side, a[1..], b, owner);
    } else {
      assert a + b == b;
    }
  }

  /** Reading the inserted rows back yields the ids they were inserted for. */
  lemma {:induction false} SelectLinksFor(side: Side, owner: int, ids: seq<int>)
    ensures Select(side, LinksFor(side, owner, ids), owner) == ids
    decreases |ids|
  {
    if |ids| > 0 {
      var n := |ids| - 1;
      LinksForSnoc(side, owner, ids);
      SelectSnoc(side, LinksFor(side, owner, ids[..n]), MakeLink(side, owner, ids[n]), owner);
      SelectLinksFor(side, owner, ids[..n]);
      assert ids == ids[..n] + [ids[n]];
    }
  }

  lemma LinksForSnoc(side: Side, owner: int, ids: seq<int>)
    requires |ids| > 0
    ensures LinksFor(side, owner, ids) == LinksFor(side, owner, ids[..|ids| - 1]) + [MakeLink(side, owner, ids[|ids| - 1])]
  {
  }

  /** One more row at the end adds its partner at the end, if it is the owner's. */
  lemma SelectSnoc(side: Side, table: seq<Link>, l: Link, owner: int)
    ensures Select(side, table + [l], owner)
         == Select(side, table, owner) + if Owner(side, l) == owner then [Partner(side, l)] else []
  {
    SelectAppend(side, table, [l], owner);
    assert [l][1..] == [];
  }

  /** An owner with no row reads back nothing. */
  lemma SelectAbsentOwner(side: Side, table: seq<Link>, owner: int)
    requires forall i :: 0 <= i < |table| ==> Owner(side, table[i]) != owner
    ensures Select(side, table, owner) == []
  {
  }

  // ---------------------------------------------------------------------
  // The diff
  // ---------------------------------------------------------------------

  /** `servicesToRemove` / `providersToRemove`: the current ids the entity no
      longer lists, in their order, each occurrence kept. */
  function ToRemove(current: seq<int>, e: Entity): (r: seq<int>)
    ensures forall x :: x in r <==> x in current && !ContainsRelated(e, x)
    ensures forall x :: multiset(r)[x] == if ContainsRelated(e, x) then 0 else multiset(current)[x]
  {
    if |current| == 0 then []
    else
      assert current == [current[0]] + current[1..];
      (if ContainsRelated(e, current[0]) then [] else [current[0]]) + ToRemove(current[1..], e)
  }

  /** `servicesToAdd` / `providersToAdd`: the ids of the desired related list
      that are not current, in list order, each occurrence kept. */
  function ToAdd(current: seq<int>, desired: seq<Entity>): (r: seq<int>)
    ensures forall x :: x in r <==> x in Ids(desired) && x !in current
    ensures forall x :: multiset(r)[x] == if x in current then 0 else multiset(Ids(desired))[x]
  {
    if |desired| == 0 then []
    else
      assert desired == [desired[0]] + desired[1..];
      assert Ids(desired) == [desired[0].id] + Ids(desired[1..]);
      (if desired[0].id in current then [] else [desired[0].id]) + ToAdd(current, desired[1..])
  }

  /** Nothing is removed exactly when every current id is still listed. */
  lemma ToRemoveEmpty(current: seq<int>, e: Entity)
    ensures ToRemove(current, e) == [] <==> forall x :: x in current ==> ContainsRelated(e, x)
  {
    var r := ToRemove(current, e);
    if |r| > 0 {
      assert r[0] in r;
    }
  }

  /** Nothing is added exactly when every desired id is already current. */
  lemma ToAddEmpty(current: seq<int>, desired: seq<Entity>)
    ensures ToAdd(current, desired) == [] <==> forall x :: x in Ids(desired) ==> x in current
  {
    var r := ToAdd(current, desired);
    if |r| > 0 {
      assert r[0] in r;
    }
  }

  /** No id is both removed and added, and an id that is both current and
      desired is neither. */
  lemma DiffDisjoint(current: seq<int>, e: Entity)
    ensures forall x :: !(x in ToRemove(current, e) && x in ToAdd(current, e.related))
    ensures forall x :: x in current && ContainsRelated(e, x) ==>
              x !in ToRemove(current, e) && x !in ToAdd(current, e.related)
  {
  }

  /** Set form of the diff: the current ids minus the removals, plus the
      additions, are exactly the desired ids. */
  lemma DiffSetEquation(current: seq<int>, e: Entity)
    ensures (set x | x in current && x !in ToRemove(current, e)) + (set x | x in ToAdd(current, e.related))
         == set x | x in Ids(e.related)
  {
    var rem, add := ToRemove(current, e), ToAdd(current, e.related);
    forall x | x in Ids(e.related)
      ensures (x in current && x !in rem) || x in add
    {
      assert ContainsRelated(e, x);
    }
  }

  // ---------------------------------------------------------------------
  // The update path
  // ---------------------------------------------------------------------

  /** Steps 2-6 of `update`: read the current ids, delete the removed ones,
      insert the added ones. */
  function Sync(side: Side, table: seq<Link>, e: Entity): seq<Link> {
    var current := Select(side, table, e.id);
    var deleted := DeleteAll(side, table, e.id, ToRemove(current, e));
    deleted + LinksFor(side, e.id, ToAdd(current, e.related))
  }

  /** How many copies of one row the update leaves. */
  lemma SyncCount(side: Side, table: seq<Link>, e: Entity, l: Link)
    ensures var current := Select(side, table, e.id);
            multiset(Sync(side, table, e))[l] ==
              if Owner(side, l) != e.id then multiset(table)[l]
              else if Partner(side, l) in ToRemove(current, e) then multiset(ToAdd(current, e.related))[Partner(side, l)]
              else multiset(table)[l] + multiset(ToAdd(current, e.related))[Partner(side, l)]
  {
    var current := Select(side, table, e.id);
    LinksForCount(side, e.id, ToAdd(current, e.related), l);
  }

  /** After the update the owner's rows name exactly the desired ids. */
  lemma SyncReachesDesired(side: Side, table: seq<Link>, e: Entity)
    ensures forall x :: x in Select(side, Sync(side, table, e), e.id) <==> ContainsRelated(e, x)
  {
    var current := Select(side, table, e.id);
    var rem, add := ToRemove(current, e), ToAdd(current, e.related);
    forall x
      ensures MakeLink(side, e.id, x) in Sync(side, table, e) <==> ContainsRelated(e, x)
    {
      var l := MakeLink(side, e.id, x);
      SyncCount(side, table, e, l);
      if ContainsRelated(e, x) && x !in current {
        assert x in Ids(e.related);
        assert x in add;
      }
    }
  }

  /** Rows of other owners keep their number of copies. */
  lemma SyncKeepsOtherOwners(side: Side, table: seq<Link>, e: Entity)
    ensures forall l :: Owner(side, l) != e.id ==> multiset(Sync(side, table, e))[l] == multiset(table)[l]
  {
    forall l | Owner(side, l) != e.id {
      SyncCount(side, table, e, l);
    }
  }

  lemma {:induction false} DistinctIdsOnce(s: seq<Entity>)
    requires DistinctIds(s)
    ensures forall x :: multiset(Ids(s))[x] <= 1
    decreases |s|
  {
    if |s| > 0 {
      var n := |s| - 1;
      DistinctIdsOnce(s[..n]);
      assert Ids(s) == Ids(s[..n]) + [s[n].id];
      assert s[n].id !in Ids(s[..n]);
    }
  }

  /** A duplicate-free table stays duplicate-free when the desired related ids
      are distinct. */
  lemma SyncNoDuplicates(side: Side, table: seq<Link>, e: Entity)
    ensures NoDuplicateLinks(table) && DistinctIds(e.related) ==> NoDuplicateLinks(Sync(side, table, e))
  {
    if NoDuplicateLinks(table) && DistinctIds(e.related) {
      SyncNoDuplicatesFrom(side, table, e);
    }
  }

  lemma SyncNoDuplicatesFrom(side: Side, table: seq<Link>, e: Entity)
    requires NoDuplicateLinks(table) && DistinctIds(e.related)
    ensures NoDuplicateLinks(Sync(side, table, e))
  {
    var current := Select(side, table, e.id);
    var add := ToAdd(current, e.related);
    DistinctIdsOnce(e.related);
    forall l | l in Sync(side, table, e)
      ensures multiset(Sync(side, table, e))[l] <= 1
    {
      SyncCount(side, table, e, l);
      if Owner(side, l) == e.id && multiset(add)[Partner(side, l)] > 0 {
        assert Partner(side, l) !in current;
        LinkOfColumns(side, l);
        assert l !in table;
      }
    }
  }

  /** The insert loop does not deduplicate: an id listed twice and not yet
      current is inserted twice. */
  lemma SyncRepeatsDuplicateIds(side: Side, table: seq<Link>, e: Entity, x: int)
    requires multiset(Ids(e.related))[x] >= 2 && x !in Select(side, table, e.id)
    ensures multiset(Sync(side, table, e))[MakeLink(side, e.id, x)] >= 2
  {
    SyncCount(side, table, e, MakeLink(side, e.id, x));
  }

  /** Running the diff again against the updated table finds nothing to do. */
  lemma SyncIdempotent(side: Side, table: seq<Link>, e: Entity)
    ensures ToRemove(Select(side, Sync(side, table, e), e.id), e) == []
    ensures ToAdd(Select(side, Sync(side, table, e), e.id), e.related) == []
  {
    SyncReachesDesired(side, table, e);
    var current := Select(side, Sync(side, table, e), e.id);
    ToRemoveEmpty(current, e);
    ToAddEmpty(current, e.related);
  }

  /** A second update with the same entity leaves the table as the first one
      left it. */
  lemma SyncTwice(side: Side, table: seq<Link>, e: Entity)
    ensures Sync(side, Sync(side, table, e), e) == Sync(side, table, e)
  {
    SyncIdempotent(side, table, e);
    var t := Sync(side, table, e);
    assert DeleteAll(side, t, e.id, []) == t;
    assert LinksFor(side, e.id, []) == [];
    assert t + [] == t;
  }

  // ---------------------------------------------------------------------
  // The save path
  // ---------------------------------------------------------------------

  /** Step 2 of `save`: after the generated key `newId` is known, one row per
      related entity, in list order. */
  function SaveLinks(side: Side, table: seq<Link>, newId: int, e: Entity): (t: seq<Link>)
    ensures |t| == |table| + |e.related| && t[..|table|] == table
    ensures forall i :: 0 <= i < |e.related| ==> t[|table| + i] == MakeLink(side, newId, e.related[i].id)
  {
    table + LinksFor(side, newId, Ids(e.related))
  }

  /** Read back under a key no row used before, the saved owner's ids are the
      related ids, each as often as it is listed (in list order, when the
      SELECT returns rows in table order), and an update with the same entity
      has nothing to do. */
  lemma SaveReadBack(side: Side, table: seq<Link>, newId: int, e: Entity)
    ensures (forall i :: 0 <= i < |table| ==> Owner(side, table[i]) != newId) ==>
              && multiset(Select(side, SaveLinks(side, table, newId, e), newId)) == multiset(Ids(e.related))
              && Select(side, SaveLinks(side, table, newId, e), newId) == Ids(e.related)
              && Sync(side, SaveLinks(side, table, newId, e), e.(id := newId)) == SaveLinks(side, table, newId, e)
  {
    if forall i :: 0 <= i < |table| ==> Owner(side, table[i]) != newId {
      SaveUnderFreshKey(side, table, newId, e);
    }
  }

  lemma SaveUnderFreshKey(side: Side, table: seq<Link>, newId: int, e: Entity)
    requires forall i :: 0 <= i < |table| ==> Owner(side, table[i]) != newId
    ensures Select(side, SaveLinks(side, table, newId, e), newId) == Ids(e.related)
    ensures Sync(side, SaveLinks(side, table, newId, e), e.(id := newId)) == SaveLinks(side, table, newId, e)
  {
    var t := SaveLinks(side, table, newId, e);
    SelectAppend(side, table, LinksFor(side, newId, Ids(e.related)), newId);
    SelectAbsentOwner(side, table, newId);
    SelectLinksFor(side, newId, Ids(e.related));
    var saved := e.(id := newId);
    assert Select(side, t, newId) == Ids(saved.related);
    ToRemoveEmpty(Ids(saved.related), saved);
    ToAddEmpty(Ids(saved.related), saved.related);
  }
}

=== FILE: provider_repository.dfy ===
/** `ProviderRepository`: the depth dispatch of the two fetches and the
    join-table effect of `save` and `update`.

    The rows a fetch's query returns are a parameter (the SQL itself is not
    modelled), and so is the key the database generates on `save`. */
module ProviderRepository {
  import opened Wrappers
  import opened Entities
  import opened Depth
  import opened Rows
  import opened Reconstruct
  import opened ResultExtractors
  import opened JoinTable

  /** `save`: one `provider_service` row `(newId, service.id)` per service, in
      list order, and the provider under its generated key. Read back under
      that key, the table lists exactly the provider's services, each as often
      as it is listed (in list order, when the SELECT returns rows in table
      order). */
  function Save(table: seq<Link>, provider: Entity, newId: int): (r: (Entity, seq<Link>))
    ensures r.0 == provider.(id := newId)
    ensures |r.1| == |table| + |provider.related| && r.1[..|table|] == table
    ensures forall i :: 0 <= i < |provider.related| ==> r.1[|table| + i] == Link(newId, provider.related[i].id)
    ensures (forall i :: 0 <= i < |table| ==> table[i].providerId != newId) ==>
              && multiset(Select(ProviderSide, r.1, newId)) == multiset(Ids(provider.related))
              && Select(ProviderSide, r.1, newId) == Ids(provider.related)
  {
    SaveReadBack(ProviderSide, table, newId, provider);
    (provider.(id := newId), SaveLinks(ProviderSide, table, newId, provider))
  }

  /** `update`, steps 2-6: afterwards the provider's rows name exactly its
      services, other providers' rows are untouched, no row is duplicated when
      none was and the services are distinct, and a repeated update changes
      nothing. The provider is returned as given. */
  function Update(table: seq<Link>, provider: Entity): (r: (Entity, seq<Link>))
    ensures r.0 == provider
    ensures forall sid :: sid in Select(ProviderSide, r.1, provider.id) <==> ContainsRelated(provider, sid)
    ensures forall l: Link :: l.providerId != provider.id ==> multiset(r.1)[l] == multiset(table)[l]
    ensures NoDuplicateLinks(table) && DistinctIds(provider.related) ==> NoDuplicateLinks(r.1)
    ensures Sync(ProviderSide, r.1, provider) == r.1
  {
    SyncReachesDesired(ProviderSide, table, provider);
    SyncKeepsOtherOwners(ProviderSide, table, provider);
    SyncTwice(ProviderSide, table, provider);
    SyncNoDuplicates(ProviderSide, table, provider);
    (provider, Sync(ProviderSide, table, provider))
  }

  /** `findAll`: SHALLOW and MEDIUM extract the query's rows, DEEP is refused
      before any query runs. When the rows carry no more column pairs than
      the depth nests (`RowsConform`), the providers nest no deeper than that depth. */
  function FindAll(depth: DepthLevel, rs: seq<ResultRow>): (r: Result<map<int, Entity>, FetchError>)
    ensures (r.Failure? && r.error.DepthFailure?) <==> depth == Deep
    ensures r.Failure? && r.error.DepthFailure? ==> r.error.depthError == UnsupportedDepth(depth)
    ensures depth != Deep ==> (r.Success? <==> ExtractProviders(rs).Success?)
    ensures r.Success? ==> r.value == ExtractProviders(rs).value
    ensures r.Success? && RowsConform(ReadRows(ProviderColumns, rs), depth) ==>
              && (depth == Shallow ==> forall id :: id in r.value ==> r.value[id].related == [])
              && forall id, k :: id in r.value && 0 <= k < |r.value[id].related| ==> r.value[id].related[k].related == []
  {
    match FindAllDepth(depth)
    case Failure(e) => Failure(DepthFailure(e))
    case Success(_) =>
      match ExtractProviders(rs)
      case Failure(e) => Failure(ExtractFailure(e))
      case Success(m) =>
        DepthBoundsNesting(ProviderKind, ReadRows(ProviderColumns, rs), depth);
        Success(m)
  }

  /** `findById` up to the extractor's result: every depth selects a query,
      so only extraction can fail; when the rows all carry `id`, the result
      holds that provider alone. */
  function FindById(id: int, depth: DepthLevel, rs: seq<ResultRow>): (r: Result<map<int, Entity>, FetchError>)
    ensures r.Success? <==> ExtractProviders(rs).Success?
    ensures r.Failure? ==> r.error.ExtractFailure?
    ensures r.Success? ==> r.value == ExtractProviders(rs).value
    ensures r.Success? && (forall i :: 0 <= i < |rs| ==> GetLong(rs[i], "provider_id") == Some(id)) ==>
              r.value.Keys == if |rs| == 0 then {} else {id}
    ensures r.Success? && RowsConform(ReadRows(ProviderColumns, rs), depth) && depth != Deep ==>
              forall pid, k :: pid in r.value && 0 <= k < |r.value[pid].related| ==> r.value[pid].related[k].related == []
  {
    var level := FindByIdDepth(depth).value;
    match ExtractProviders(rs)
    case Failure(e) => Failure(ExtractFailure(e))
    case Success(m) =>
      DepthBoundsNesting(ProviderKind, ReadRows(ProviderColumns, rs), level);
      Success(m)
  }
}

=== FILE: reconstruct.dfy ===
/** Graph reconstruction: the loop shared by `ProviderResultExtractor.extractData`
    and `ServiceResultExtractor.extractData`.

    One forward pass over the rows keeps a map from primary id to the root
    built so far. A row first finds or creates its root (the primary columns
    are read outside any `try`, so an unreadable one aborts the extraction),
    then appends its related entity unless one with that id is already in the
    root's list, and finally appends its secondary entity to the related
    entity held in that list. An unreadable related or secondary pair ends
    the row early (`continue`). The map is threaded functionally: writing the
    updated root back under its id stands for the in-place mutation of the
    shared Java objects.

    `Extract` is the fold itself, `Expected` an independent description of
    its result built from per-id summaries of the rows, and
    `ExtractMatchesReference` proves the two agree. */
module Reconstruct {
  import opened Wrappers
  import opened Entities
  import opened Rows
  import opened Depth

  datatype ExtractError =
    | MissingPrimaryId     // `getLong` of the primary id column threw
    | MissingPrimaryName   // `getString` of the primary name column threw when creating the root

  /** The row carries this primary id. */
  predicate Bears(row: FlatRow, id: int) {
    row.primaryId == Some(id)
  }

  /** The row relates primary `id` to the related entity `rid`. */
  predicate RelatesTo(row: FlatRow, id: int, rid: int) {
    Bears(row, id) && row.related.Some? && row.related.value.id == rid
  }

  // ---------------------------------------------------------------------
  // The fold
  // ---------------------------------------------------------------------

  /** The guarded append of the first `try` block: the related entity is added
      only when no entity with its id is in the list yet. */
  function AddRelatedIfAbsent(root: Entity, x: Entity): (r: Entity)
    ensures r.kind == root.kind && r.id == root.id && r.name == root.name && r.deleted == root.deleted
    ensures ContainsRelated(r, x.id)
    ensures |r.related| == if ContainsRelated(root, x.id) then |root.related| else |root.related| + 1
    ensures r.related[..|root.related|] == root.related
    ensures DistinctIds(root.related) ==> DistinctIds(r.related)
  {
    if ContainsRelated(root, x.id) then root
    else
      assert DistinctIds(root.related) ==> DistinctIds(AddRelated(root, x).related) by {
        if DistinctIds(root.related) {
          AddRelatedDistinct(root, x);
        }
      }
      AddRelated(root, x)
  }

  /** The second `try` block: the secondary entity is appended to the first
      related entity with id `relatedId` held in the root's list. When there is
      none, Java appends it to the freshly built related entity, which is
      referenced from nowhere, so nothing visible changes. */
  function AttachSecondary(root: Entity, relatedId: int, secondary: Entity): (r: Entity)
    ensures r.kind == root.kind && r.id == root.id && r.name == root.name && r.deleted == root.deleted
    ensures Ids(r.related) == Ids(root.related)
    ensures !ContainsRelated(root, relatedId) ==> r == root
    ensures forall k :: FirstIndex(root.related, relatedId) == Some(k) ==>
              && r.related[k].related == root.related[k].related + [secondary]
              && r.related[k] == root.related[k].(related := r.related[k].related)
              && forall j :: 0 <= j < |root.related| && j != k ==> r.related[j] == root.related[j]
  {
    match FirstIndex(root.related, relatedId)
    case Some(k) => root.(related := root.related[k := AddRelated(root.related[k], secondary)])
    case None => root
  }

  /** Everything a row contributes to its (found or created) root. */
  function AttachRow(kind: Kind, root: Entity, row: FlatRow): Entity {
    match row.related
    case None => root
    case Some(c) =>
      var withRelated := AddRelatedIfAbsent(root, New(kind.Other(), c.id, c.name));
      match row.secondary
      case None => withRelated
      case Some(s) => AttachSecondary(withRelated, c.id, New(kind, s.id, s.name))
  }

  /** A row leaves its root alone without a related pair; otherwise the
      related id is listed afterwards, the ids listed before stay in place,
      and at most one id is added. */
  lemma AttachRowKeepsRoot(kind: Kind, root: Entity, row: FlatRow)
    ensures var r := AttachRow(kind, root, row);
            && r.kind == root.kind && r.id == root.id && r.name == root.name && r.deleted == root.deleted
            && (row.related.None? ==> r == root)
            && (row.related.Some? ==> ContainsRelated(r, row.related.value.id))
            && |root.related| <= |r.related| <= |root.related| + 1
            && Ids(r.related)[..|root.related|] == Ids(root.related)
  {
  }

  /** One iteration of the `while (rs.next())` loop. */
  function Step(kind: Kind, acc: map<int, Entity>, row: FlatRow): Result<map<int, Entity>, ExtractError> {
    match row.primaryId
    case None => Failure(MissingPrimaryId)
    case Some(id) =>
      if id in acc then Success(acc[id := AttachRow(kind, acc[id], row)])
      else match row.primaryName
        case None => Failure(MissingPrimaryName)
        case Some(name) => Success(acc[id := AttachRow(kind, New(kind, id, name), row)])
  }

  /** The whole loop over `rows`, written as "the first rows, then the last one"
      so that every prefix of the scan is itself an extraction. */
  function Extract(kind: Kind, rows: seq<FlatRow>): Result<map<int, Entity>, ExtractError>
    decreases |rows|
  {
    if |rows| == 0 then Success(map[])
    else match Extract(kind, rows[..|rows| - 1])
      case Failure(e) => Failure(e)
      case Success(acc) => Step(kind, acc, rows[|rows| - 1])
  }

  /** A step fails exactly when the row has no primary id, or starts a new
      root without a name. A successful step adds the row's primary id to the
      keys and leaves every other root as it was; a root it creates is a fresh
      entity of `kind` under the row's primary id and name. */
  lemma StepOutcome(kind: Kind, acc: map<int, Entity>, row: FlatRow)
    ensures row.primaryId.None? ==> Step(kind, acc, row) == Failure(MissingPrimaryId)
    ensures row.primaryId.Some? && row.primaryId.value !in acc && row.primaryName.None? ==>
              Step(kind, acc, row) == Failure(MissingPrimaryName)
    ensures Step(kind, acc, row).Success? <==> row.primaryId.Some? && (row.primaryId.value in acc || row.primaryName.Some?)
    ensures Step(kind, acc, row).Success? ==>
              var m := Step(kind, acc, row).value;
              && m.Keys == acc.Keys + {row.primaryId.value}
              && (forall id :: id in acc && id != row.primaryId.value ==> m[id] == acc[id])
              && (row.primaryId.value !in acc ==>
                    var root := m[row.primaryId.value];
                    && root.kind == kind && root.id == row.primaryId.value
                    && root.name == row.primaryName.value && !root.deleted)
  {
  }

  // ---------------------------------------------------------------------
  // The reference description
  // ---------------------------------------------------------------------

  /** The distinct primary ids that occur in the rows. */
  function PrimaryIds(rows: seq<FlatRow>): set<int> {
    set i | 0 <= i < |rows| && rows[i].primaryId.Some? :: rows[i].primaryId.value
  }

  /** The name column of the first row bearing `id`. */
  function FirstName(rows: seq<FlatRow>, id: int): Option<string>
    decreases |rows|
  {
    if |rows| == 0 then None
    else if id in PrimaryIds(rows[..|rows| - 1]) then FirstName(rows[..|rows| - 1], id)
    else if Bears(rows[|rows| - 1], id) then rows[|rows| - 1].primaryName
    else None
  }

  /** Every primary id can be read, and so can the name on the first row of each id. */
  predicate Readable(rows: seq<FlatRow>)
    decreases |rows|
  {
    |rows| == 0 ||
    (var init, row := rows[..|rows| - 1], rows[|rows| - 1];
     && Readable(init)
     && row.primaryId.Some?
     && (row.primaryId.value in PrimaryIds(init) || row.primaryName.Some?))
  }

  /** The related ids of primary `id`, each once, in order of first occurrence. */
  function RelatedIds(rows: seq<FlatRow>, id: int): seq<int>
    decreases |rows|
  {
    if |rows| == 0 then []
    else
      var prev, row := RelatedIds(rows[..|rows| - 1], id), rows[|rows| - 1];
      if Bears(row, id) && row.related.Some? && row.related.value.id !in prev
      then prev + [row.related.value.id]
      else prev
  }

  /** The related name on the first row relating `id` to `rid`. */
  function RelatedName(rows: seq<FlatRow>, id: int, rid: int): string
    decreases |rows|
  {
    if |rows| == 0 then ""
    else if rid in RelatedIds(rows[..|rows| - 1], id) then RelatedName(rows[..|rows| - 1], id, rid)
    else if RelatesTo(rows[|rows| - 1], id, rid) then rows[|rows| - 1].related.value.name
    else ""
  }

  /** The secondary entity a row contributes under its related entity, if any. */
  function SecondaryOf(kind: Kind, row: FlatRow): seq<Entity> {
    if row.secondary.Some? then [New(kind, row.secondary.value.id, row.secondary.value.name)] else []
  }

  /** One secondary entity per row that relates `id` to `rid` and carries
      secondary columns, in row order and without deduplication. */
  function Secondaries(kind: Kind, rows: seq<FlatRow>, id: int, rid: int): seq<Entity>
    decreases |rows|
  {
    if |rows| == 0 then []
    else
      var row := rows[|rows| - 1];
      Secondaries(kind, rows[..|rows| - 1], id, rid)
        + if RelatesTo(row, id, rid) then SecondaryOf(kind, row) else []
  }

  function RelatedOf(kind: Kind, rows: seq<FlatRow>, id: int, rid: int): Entity {
    Entity(kind.Other(), rid, RelatedName(rows, id, rid), false, Secondaries(kind, rows, id, rid))
  }

  function RelatedList(kind: Kind, rows: seq<FlatRow>, id: int): seq<Entity> {
    var ids := RelatedIds(rows, id);
    seq(|ids|, k requires 0 <= k < |ids| => RelatedOf(kind, rows, id, ids[k]))
  }

  function RootOf(kind: Kind, rows: seq<FlatRow>, id: int): Entity {
    Entity(kind, id, FirstName(rows, id).GetOr(""), false, RelatedList(kind, rows, id))
  }

  /** What the extraction should produce: one root per distinct primary id. */
  function Expected(kind: Kind, rows: seq<FlatRow>): map<int, Entity> {
    map id | id in PrimaryIds(rows) :: RootOf(kind, rows, id)
  }

  // ---------------------------------------------------------------------
  // Facts about the reference description
  // ---------------------------------------------------------------------

  lemma PrimaryIdsSnoc(rows: seq<FlatRow>, row: FlatRow)
    ensures PrimaryIds(rows + [row]) == PrimaryIds(rows) + (if row.primaryId.Some? then {row.primaryId.value} else {})
  {
    var r := rows + [row];
    forall x | x in PrimaryIds(r) ensures x in PrimaryIds(rows) || row.primaryId == Some(x) {
      var i :| 0 <= i < |r| && r[i].primaryId == Some(x);
      if i < |rows| { assert rows[i] == r[i]; }
    }
    forall x | x in PrimaryIds(rows) ensures x in PrimaryIds(r) {
      var i :| 0 <= i < |rows| && rows[i].primaryId == Some(x);
      assert r[i] == rows[i];
    }
    if row.primaryId.Some? {
      assert r[|rows|] == row;
    }
  }

  /** An id that no row bears has no name, no related ids and no secondaries. */
  lemma {:induction false} UnseenPrimary(kind: Kind, rows: seq<FlatRow>, id: int)
    requires id !in PrimaryIds(rows)
    ensures FirstName(rows, id) == None && RelatedIds(rows, id) == []
    ensures forall rid :: Secondaries(kind, rows, id, rid) == []
  {
    if |rows| > 0 {
      var init := rows[..|rows| - 1];
      assert rows == init + [rows[|rows| - 1]];
      PrimaryIdsSnoc(init, rows[|rows| - 1]);
      UnseenPrimary(kind, init, id);
    }
  }

  /** A related id never seen with `id` has no secondaries under it. */
  lemma {:induction false} UnseenRelated(kind: Kind, rows: seq<FlatRow>, id: int, rid: int)
    requires rid !in RelatedIds(rows, id)
    ensures Secondaries(kind, rows, id, rid) == []
  {
    if |rows| > 0 {
      UnseenRelated(kind, rows[..|rows| - 1], id, rid);
    }
  }

  /** The related ids of one primary id are pairwise distinct. */
  lemma {:induction false} RelatedIdsDistinct(rows: seq<FlatRow>, id: int)
    ensures forall i, j :: 0 <= i < j < |RelatedIds(rows, id)| ==> RelatedIds(rows, id)[i] != RelatedIds(rows, id)[j]
  {
    if |rows| > 0 {
      RelatedIdsDistinct(rows[..|rows| - 1], id);
    }
  }

  lemma RelatedListShape(kind: Kind, rows: seq<FlatRow>, id: int)
    ensures Ids(RelatedList(kind, rows, id)) == RelatedIds(rows, id)
    ensures DistinctIds(RelatedList(kind, rows, id))
  {
    RelatedIdsDistinct(rows, id);
  }

  // ---------------------------------------------------------------------
  // One row: the fold step agrees with the reference description
  // ---------------------------------------------------------------------

  /** A listed related entity that the new row does not mention is unchanged. */
  lemma RelatedOfUntouched(kind: Kind, rows: seq<FlatRow>, row: FlatRow, id: int, rid: int)
    requires rid in RelatedIds(rows, id) && !RelatesTo(row, id, rid)
    ensures RelatedOf(kind, rows + [row], id, rid) == RelatedOf(kind, rows, id, rid)
  {
    var r := rows + [row];
    assert r[..|r| - 1] == rows;
    assert Secondaries(kind, r, id, rid) == Secondaries(kind, rows, id, rid);
  }

  /** A listed related entity that the new row mentions gains the row's secondary. */
  lemma RelatedOfAgain(kind: Kind, rows: seq<FlatRow>, row: FlatRow, id: int, rid: int)
    requires rid in RelatedIds(rows, id) && RelatesTo(row, id, rid)
    ensures RelatedOf(kind, rows + [row], id, rid)
         == RelatedOf(kind, rows, id, rid).(related := Secondaries(kind, rows, id, rid) + SecondaryOf(kind, row))
  {
    var r := rows + [row];
    assert r[..|r| - 1] == rows;
    assert Secondaries(kind, r, id, rid) == Secondaries(kind, rows, id, rid) + SecondaryOf(kind, row);
  }

  /** A related entity first mentioned by the new row takes its name from it
      and holds only that row's secondary. */
  lemma RelatedOfFirst(kind: Kind, rows: seq<FlatRow>, row: FlatRow, id: int, rid: int)
    requires rid !in RelatedIds(rows, id) && RelatesTo(row, id, rid)
    ensures RelatedOf(kind, rows + [row], id, rid)
         == Entity(kind.Other(), rid, row.related.value.name, false, SecondaryOf(kind, row))
  {
    var r := rows + [row];
    assert r[..|r| - 1] == rows;
    UnseenRelated(kind, rows, id, rid);
    assert Secondaries(kind, r, id, rid) == [] + SecondaryOf(kind, row);
  }

  /** A row without readable related columns leaves the related list as it was. */
  lemma AttachRowNoRelated(kind: Kind, rows: seq<FlatRow>, row: FlatRow, id: int)
    requires row.related.None?
    ensures RelatedList(kind, rows + [row], id) == RelatedList(kind, rows, id)
  {
    var r := rows + [row];
    assert r[..|r| - 1] == rows;
    var ids := RelatedIds(rows, id);
    assert RelatedIds(r, id) == ids;
    forall k | 0 <= k < |ids|
      ensures RelatedOf(kind, r, id, ids[k]) == RelatedOf(kind, rows, id, ids[k])
    {
      RelatedOfUntouched(kind, rows, row, id, ids[k]);
    }
  }

  /** A row relating `id` to an already listed related id: only that related
      entity can change, by one more secondary when the row carries one. */
  lemma AttachRowKnownRelated(kind: Kind, rows: seq<FlatRow>, row: FlatRow, id: int, name: string)
    requires Bears(row, id) && row.related.Some?
    requires row.related.value.id in RelatedIds(rows, id)
    ensures AttachRow(kind, Entity(kind, id, name, false, RelatedList(kind, rows, id)), row)
         == Entity(kind, id, name, false, RelatedList(kind, rows + [row], id))
  {
    var r := rows + [row];
    assert r[..|r| - 1] == rows;
    var c := row.related.value;
    var ids := RelatedIds(rows, id);
    var L := RelatedList(kind, rows, id);
    var L' := RelatedList(kind, r, id);
    var root := Entity(kind, id, name, false, L);
    RelatedListShape(kind, rows, id);
    assert RelatedIds(r, id) == ids;
    var kc :| 0 <= kc < |ids| && ids[kc] == c.id;
    assert L[kc].id == c.id;
    assert ContainsRelated(root, c.id);
    assert AddRelatedIfAbsent(root, New(kind.Other(), c.id, c.name)) == root;
    forall k | 0 <= k < |ids| && k != kc
      ensures L'[k] == L[k]
    {
      RelatedOfUntouched(kind, rows, row, id, ids[k]);
    }
    RelatedOfAgain(kind, rows, row, id, c.id);
    match row.secondary
    case None =>
      assert L'[kc] == L[kc];
      assert L' == L;
    case Some(s) =>
      var sec := New(kind, s.id, s.name);
      assert FirstIndex(L, c.id) == Some(kc);
      var attached := AttachSecondary(root, c.id, sec);
      assert attached.related[kc] == L'[kc];
      assert attached.related == L';
  }

  /** A row relating `id` to a new related id appends one related entity. */
  lemma RelatedListGrows(kind: Kind, rows: seq<FlatRow>, row: FlatRow, id: int)
    requires Bears(row, id) && row.related.Some?
    requires row.related.value.id !in RelatedIds(rows, id)
    ensures RelatedList(kind, rows + [row], id)
         == RelatedList(kind, rows, id)
            + [Entity(kind.Other(), row.related.value.id, row.related.value.name, false, SecondaryOf(kind, row))]
  {
    var r := rows + [row];
    assert r[..|r| - 1] == rows;
    var c := row.related.value;
    var ids := RelatedIds(rows, id);
    var L := RelatedList(kind, rows, id);
    var L' := RelatedList(kind, r, id);
    assert RelatedIds(r, id) == ids + [c.id];
    forall k | 0 <= k < |ids|
      ensures L'[k] == L[k]
    {
      RelatedOfUntouched(kind, rows, row, id, ids[k]);
    }
    RelatedOfFirst(kind, rows, row, id, c.id);
  }

  /** A row relating `id` to a new related id: the related entity is appended,
      carrying the row's secondary entity when there is one. */
  lemma AttachRowNewRelated(kind: Kind, rows: seq<FlatRow>, row: FlatRow, id: int, name: string)
    requires Bears(row, id) && row.related.Some?
    requires row.related.value.id !in RelatedIds(rows, id)
    ensures AttachRow(kind, Entity(kind, id, name, false, RelatedList(kind, rows, id)), row)
         == Entity(kind, id, name, false, RelatedList(kind, rows + [row], id))
  {
    var root := Entity(kind, id, name, false, RelatedList(kind, rows, id));
    RelatedListShape(kind, rows, id);
    RelatedListGrows(kind, rows, row, id);
    assert !ContainsRelated(root, row.related.value.id);
    AttachRowFresh(kind, root, row);
  }

  /** A row whose related id the root does not list yet appends one related
      entity, carrying the row's secondary entity when there is one. */
  lemma AttachRowFresh(kind: Kind, root: Entity, row: FlatRow)
    requires row.related.Some? && !ContainsRelated(root, row.related.value.id)
    ensures AttachRow(kind, root, row)
         == root.(related := root.related
                  + [Entity(kind.Other(), row.related.value.id, row.related.value.name, false, SecondaryOf(kind, row))])
  {
    var c := row.related.value;
    var added := New(kind.Other(), c.id, c.name);
    AddFreshRelated(root, added);
    match row.secondary
    case None =>
    case Some(s) =>
      var withRelated := root.(related := root.related + [added]);
      var attached := AttachSecondary(withRelated, c.id, New(kind, s.id, s.name));
      assert attached.related[|root.related|] == added.(related := SecondaryOf(kind, row));
      assert attached.related == root.related + [added.(related := SecondaryOf(kind, row))];
  }

  /** An entity whose id the root does not list yet is appended, and it is the
      first related entity with that id. */
  lemma AddFreshRelated(root: Entity, x: Entity)
    requires !ContainsRelated(root, x.id)
    ensures AddRelatedIfAbsent(root, x) == root.(related := root.related + [x])
    ensures FirstIndex(root.related + [x], x.id) == Some(|root.related|)
  {
    var s := root.related + [x];
    assert forall j :: 0 <= j < |root.related| ==> s[j].id != x.id;
    assert s[|root.related|].id == x.id;
  }

  lemma AttachRowMatches(kind: Kind, rows: seq<FlatRow>, row: FlatRow, id: int, name: string)
    requires Bears(row, id)
    ensures AttachRow(kind, Entity(kind, id, name, false, RelatedList(kind, rows, id)), row)
         == Entity(kind, id, name, false, RelatedList(kind, rows + [row], id))
  {
    if row.related.None? {
      AttachRowNoRelated(kind, rows, row, id);
    } else if row.related.value.id in RelatedIds(rows, id) {
      AttachRowKnownRelated(kind, rows, row, id, name);
    } else {
      AttachRowNewRelated(kind, rows, row, id, name);
    }
  }

  /** A row bearing another primary id does not change this root. */
  lemma OtherRootUnchanged(kind: Kind, rows: seq<FlatRow>, row: FlatRow, id: int)
    requires !Bears(row, id)
    ensures RootOf(kind, rows + [row], id) == RootOf(kind, rows, id)
  {
    var r := rows + [row];
    assert r[..|r| - 1] == rows;
    if id !in PrimaryIds(rows) {
      UnseenPrimary(kind, rows, id);
    }
    assert FirstName(r, id) == FirstName(rows, id);
    var ids := RelatedIds(rows, id);
    assert RelatedIds(r, id) == ids;
    forall k | 0 <= k < |ids|
      ensures RelatedOf(kind, r, id, ids[k]) == RelatedOf(kind, rows, id, ids[k])
    {
    }
  }

  /** The root a row's primary id has before the row is applied, whether it
      was found in the accumulator or created from the row. */
  lemma RootBeforeRow(kind: Kind, rows: seq<FlatRow>, row: FlatRow)
    requires Readable(rows + [row])
    ensures var id := row.primaryId.value;
            var base := if id in PrimaryIds(rows) then RootOf(kind, rows, id) else New(kind, id, row.primaryName.value);
            base == Entity(kind, id, FirstName(rows + [row], id).GetOr(""), false, RelatedList(kind, rows, id))
  {
    var r := rows + [row];
    assert r[..|r| - 1] == rows;
    var id := row.primaryId.value;
    if id !in PrimaryIds(rows) {
      UnseenPrimary(kind, rows, id);
      assert RelatedList(kind, rows, id) == [];
    }
  }

  /** Writing the new root back leaves the accumulator equal to the reference map
      of the longer row sequence. */
  lemma ExpectedSnoc(kind: Kind, rows: seq<FlatRow>, row: FlatRow)
    requires row.primaryId.Some?
    ensures Expected(kind, rows + [row])
         == Expected(kind, rows)[row.primaryId.value := RootOf(kind, rows + [row], row.primaryId.value)]
  {
    var r := rows + [row];
    var id := row.primaryId.value;
    PrimaryIdsSnoc(rows, row);
    forall x | x in PrimaryIds(r) && x != id
      ensures RootOf(kind, r, x) == RootOf(kind, rows, x)
    {
      OtherRootUnchanged(kind, rows, row, x);
    }
  }

  lemma StepMatchesReference(kind: Kind, rows: seq<FlatRow>, row: FlatRow)
    requires Readable(rows + [row])
    ensures Step(kind, Expected(kind, rows), row) == Success(Expected(kind, rows + [row]))
  {
    var r := rows + [row];
    assert r[..|r| - 1] == rows;
    var id := row.primaryId.value;
    var acc := Expected(kind, rows);
    var base := if id in acc then acc[id] else New(kind, id, row.primaryName.value);
    RootBeforeRow(kind, rows, row);
    AttachRowMatches(kind, rows, row, id, FirstName(r, id).GetOr(""));
    assert AttachRow(kind, base, row) == RootOf(kind, r, id);
    ExpectedSnoc(kind, rows, row);
  }

  // ---------------------------------------------------------------------
  // The fold agrees with the reference description
  // ---------------------------------------------------------------------

  /** The extraction succeeds exactly on readable rows, and then yields the
      reference map. */
  lemma {:induction false} ExtractMatchesReference(kind: Kind, rows: seq<FlatRow>)
    ensures Extract(kind, rows).Success? <==> Readable(rows)
    ensures Readable(rows) ==> Extract(kind, rows) == Success(Expected(kind, rows))
    decreases |rows|
  {
    if |rows| > 0 {
      var init, row := rows[..|rows| - 1], rows[|rows| - 1];
      assert rows == init + [row];
      ExtractMatchesReference(kind, init);
      if Readable(rows) {
        StepMatchesReference(kind, init, row);
      } else if Readable(init) {
        assert Extract(kind, init) == Success(Expected(kind, init));
        var acc := Expected(kind, init);
        assert row.primaryId.None? || (row.primaryId.value !in acc && row.primaryName.None?);
      }
    }
  }

  /** Once a prefix fails, the whole extraction fails with the same error. */
  lemma {:induction false} FailureIsFinal(kind: Kind, rows: seq<FlatRow>, n: nat, e: ExtractError)
    requires n <= |rows|
    requires Extract(kind, rows[..n]) == Failure(e)
    ensures Extract(kind, rows) == Failure(e)
    decreases |rows| - n
  {
    if n < |rows| {
      assert rows[..n + 1][..n] == rows[..n];
      FailureIsFinal(kind, rows, n + 1, e);
    } else {
      assert rows[..n] == rows;
    }
  }

  // ---------------------------------------------------------------------
  // Consequences for the extracted graph
  // ---------------------------------------------------------------------

  /** Readability in terms of row positions: every row has a primary id, and a
      row whose name column is unreadable repeats an id seen on an earlier row. */
  lemma {:induction false} ReadableByPosition(rows: seq<FlatRow>)
    ensures Readable(rows) <==>
      forall i :: 0 <= i < |rows| ==>
        && rows[i].primaryId.Some?
        && (rows[i].primaryName.Some? || exists j :: 0 <= j < i && rows[j].primaryId == rows[i].primaryId)
    decreases |rows|
  {
    if |rows| > 0 {
      var init, row := rows[..|rows| - 1], rows[|rows| - 1];
      ReadableByPosition(init);
      var n := |rows| - 1;
      assert forall i :: 0 <= i < n ==> rows[i] == init[i];
      if row.primaryId.Some? {
        var id := row.primaryId.value;
        assert id in PrimaryIds(init) <==> exists j :: 0 <= j < n && rows[j].primaryId == rows[n].primaryId by {
          if id in PrimaryIds(init) {
            var j :| 0 <= j < |init| && init[j].primaryId == Some(id);
            assert rows[j].primaryId == rows[n].primaryId;
          }
        }
      }
    }
  }

  /** A row without a readable primary id aborts the whole extraction. */
  lemma ExtractFailsOnMissingPrimaryId(kind: Kind, rows: seq<FlatRow>, i: nat)
    requires i < |rows| && rows[i].primaryId.None?
    ensures Extract(kind, rows).Failure?
  {
    ReadableByPosition(rows);
    ExtractMatchesReference(kind, rows);
  }

  /** On readable rows every primary id has a first name. */
  lemma {:induction false} ReadableNames(rows: seq<FlatRow>)
    requires Readable(rows)
    ensures forall id :: id in PrimaryIds(rows) ==> FirstName(rows, id).Some?
    decreases |rows|
  {
    if |rows| > 0 {
      var init, row := rows[..|rows| - 1], rows[|rows| - 1];
      assert rows == init + [row];
      ReadableNames(init);
      PrimaryIdsSnoc(init, row);
    }
  }

  /** `FirstName` is the name column of the first row bearing the id. */
  lemma {:induction false} FirstNameIsFirstRow(rows: seq<FlatRow>, id: int)
    requires id in PrimaryIds(rows)
    ensures exists i :: 0 <= i < |rows| && Bears(rows[i], id)
              && (forall j :: 0 <= j < i ==> !Bears(rows[j], id))
              && FirstName(rows, id) == rows[i].primaryName
    decreases |rows|
  {
    var init, row := rows[..|rows| - 1], rows[|rows| - 1];
    assert rows == init + [row];
    PrimaryIdsSnoc(init, row);
    if id in PrimaryIds(init) {
      FirstNameIsFirstRow(init, id);
      var i :| 0 <= i < |init| && Bears(init[i], id)
                && (forall j :: 0 <= j < i ==> !Bears(init[j], id))
                && FirstName(init, id) == init[i].primaryName;
      assert rows[i] == init[i];
      assert FirstName(rows, id) == FirstName(init, id);
    } else {
      forall j | 0 <= j < |init| ensures !Bears(rows[j], id) {
        assert rows[j] == init[j];
      }
      assert Bears(rows[|init|], id) && FirstName(rows, id) == rows[|init|].primaryName;
    }
  }

  /** The roots: exactly one per distinct primary id, each of the extractor's
      kind, not deleted, and named after the first row bearing its id. */
  lemma ExtractRoots(kind: Kind, rows: seq<FlatRow>)
    requires Extract(kind, rows).Success?
    ensures var m := Extract(kind, rows).value;
            && m.Keys == PrimaryIds(rows)
            && |m| == |PrimaryIds(rows)|
            && forall id :: id in m ==>
                 && m[id].kind == kind && m[id].id == id && !m[id].deleted
                 && FirstName(rows, id) == Some(m[id].name)
  {
    ExtractMatchesReference(kind, rows);
    ReadableNames(rows);
    var m := Extract(kind, rows).value;
    assert m.Keys == PrimaryIds(rows);
  }

  /** A related id is listed under `id` exactly when some row relates them. */
  lemma {:induction false} RelatedIdsFromRows(rows: seq<FlatRow>, id: int, rid: int)
    ensures rid in RelatedIds(rows, id) <==> exists i :: 0 <= i < |rows| && RelatesTo(rows[i], id, rid)
    decreases |rows|
  {
    if |rows| > 0 {
      var init, row := rows[..|rows| - 1], rows[|rows| - 1];
      RelatedIdsFromRows(init, id, rid);
      if exists i :: 0 <= i < |init| && RelatesTo(init[i], id, rid) {
        var i :| 0 <= i < |init| && RelatesTo(init[i], id, rid);
        assert rows[i] == init[i];
      }
      if exists i :: 0 <= i < |rows| && RelatesTo(rows[i], id, rid) {
        var i :| 0 <= i < |rows| && RelatesTo(rows[i], id, rid);
        if i < |init| {
          assert init[i] == rows[i];
        }
      }
    }
  }

  /** The rows that contribute a secondary entity under `(id, rid)`. */
  function SecondaryRows(rows: seq<FlatRow>, id: int, rid: int): set<nat> {
    set i: nat | i < |rows| && RelatesTo(rows[i], id, rid) && rows[i].secondary.Some?
  }

  /** Secondary attachment has no duplicate check: exactly one secondary entity
      per contributing row, each a bare entity of the primary kind. */
  lemma {:induction false} SecondariesPerRow(kind: Kind, rows: seq<FlatRow>, id: int, rid: int)
    ensures |Secondaries(kind, rows, id, rid)| == |SecondaryRows(rows, id, rid)|
    ensures forall j :: 0 <= j < |Secondaries(kind, rows, id, rid)| ==>
              var e := Secondaries(kind, rows, id, rid)[j]; e.kind == kind && !e.deleted && e.related == []
    decreases |rows|
  {
    if |rows| > 0 {
      var n := |rows| - 1;
      var init, row := rows[..n], rows[n];
      SecondariesPerRow(kind, init, id, rid);
      var before := SecondaryRows(init, id, rid);
      assert forall i :: 0 <= i < n ==> rows[i] == init[i];
      if RelatesTo(row, id, rid) && row.secondary.Some? {
        assert SecondaryRows(rows, id, rid) == before + {n};
      } else {
        assert SecondaryRows(rows, id, rid) == before;
      }
    }
  }

  /** The related lists: no two related entities share an id, the ids are those
      the rows relate to the root (first occurrence first), and each related
      entity carries one secondary entity per row that mentions the pair. This
      holds after every prefix of the scan as well, a prefix being a row
      sequence of its own. */
  lemma ExtractRelated(kind: Kind, rows: seq<FlatRow>)
    requires Extract(kind, rows).Success?
    ensures var m := Extract(kind, rows).value;
            forall id :: id in m ==>
              && DistinctIds(m[id].related)
              && Ids(m[id].related) == RelatedIds(rows, id)
              && forall k :: 0 <= k < |m[id].related| ==>
                   && m[id].related[k].kind == kind.Other()
                   && m[id].related[k].related == Secondaries(kind, rows, id, m[id].related[k].id)
                   && |m[id].related[k].related| == |SecondaryRows(rows, id, m[id].related[k].id)|
  {
    ExtractMatchesReference(kind, rows);
    forall id, rid {
      SecondariesPerRow(kind, rows, id, rid);
    }
    forall id | id in PrimaryIds(rows) {
      RelatedListShape(kind, rows, id);
    }
  }

  /** The graph is at most two levels deep: secondary entities carry nothing. */
  lemma NestingAtMostTwoLevels(kind: Kind, rows: seq<FlatRow>)
    requires Extract(kind, rows).Success?
    ensures var m := Extract(kind, rows).value;
            forall id, k, j :: id in m && 0 <= k < |m[id].related| && 0 <= j < |m[id].related[k].related| ==>
              m[id].related[k].related[j].related == []
  {
    ExtractRelated(kind, rows);
    forall id, rid {
      SecondariesPerRow(kind, rows, id, rid);
    }
  }

  /** Rows that carry no more column pairs than the depth nests: at SHALLOW
      only the primary pair, below DEEP no secondary pair. (The SHALLOW query
      as written selects unaliased `id, name`, so its real rows carry no
      primary pair either and fail extraction.) */
  predicate RowsConform(rows: seq<FlatRow>, d: DepthLevel) {
    forall i :: 0 <= i < |rows| ==>
      && (d == Shallow ==> rows[i].related.None?)
      && (d != Deep ==> rows[i].secondary.None?)
  }

  lemma {:induction false} NoRelatedColumns(rows: seq<FlatRow>, id: int)
    requires forall i :: 0 <= i < |rows| ==> rows[i].related.None?
    ensures RelatedIds(rows, id) == []
    decreases |rows|
  {
    if |rows| > 0 {
      NoRelatedColumns(rows[..|rows| - 1], id);
    }
  }

  /** The depth decides how deep the extracted graph is: SHALLOW rows give roots
      with empty related lists, MEDIUM rows give related entities with empty
      lists of their own. */
  lemma DepthBoundsNesting(kind: Kind, rows: seq<FlatRow>, d: DepthLevel)
    ensures RowsConform(rows, d) && Extract(kind, rows).Success? && d == Shallow ==>
              forall id :: id in Extract(kind, rows).value ==> Extract(kind, rows).value[id].related == []
    ensures RowsConform(rows, d) && Extract(kind, rows).Success? && d != Deep ==>
              forall id, k :: id in Extract(kind, rows).value && 0 <= k < |Extract(kind, rows).value[id].related| ==>
                Extract(kind, rows).value[id].related[k].related == []
  {
    if RowsConform(rows, d) && Extract(kind, rows).Success? {
      var m := Extract(kind, rows).value;
      ExtractRelated(kind, rows);
      if d == Shallow {
        forall id | id in m ensures m[id].related == [] {
          NoRelatedColumns(rows, id);
        }
      }
      if d != Deep {
        forall id, k | id in m && 0 <= k < |m[id].related| ensures m[id].related[k].related == [] {
          assert SecondaryRows(rows, id, m[id].related[k].id) == {};
        }
      }
    }
  }
}

=== FILE: rows.dfy ===
/** Result rows of the join queries, and how an extractor reads them.

    A JDBC row is modelled as two column-indexed maps, one per accessor
    (`getLong`, `getString`); a column absent from the map is a column the
    query did not select, for which the accessor throws `SQLException`.
    Reading a row through an extractor's column labels yields a `FlatRow`:
    the primary id and name, and the related and secondary entities, each
    present only when both of its columns could be read. */
module Rows {
  import opened Wrappers

  datatype ResultRow = ResultRow(longs: map<string, int>, strings: map<string, string>)

  /** An entity's `(id, name)` column pair. */
  datatype Cell = Cell(id: int, name: string)

  datatype FlatRow = FlatRow(
    primaryId: Option<int>,
    primaryName: Option<string>,
    related: Option<Cell>,
    secondary: Option<Cell>)

  /** The column labels one extractor reads. */
  datatype Columns = Columns(
    primaryId: string, primaryName: string,
    relatedId: string, relatedName: string,
    secondaryId: string, secondaryName: string)

  /** `ProviderResultExtractor`: providers, their services, and those services' providers. */
  const ProviderColumns := Columns(
    "provider_id", "provider_name",
    "service_id", "service_name",
    "provider_service_id", "provider_service_name")

  /** `ServiceResultExtractor`: services, their providers, and those providers' services. */
  const ServiceColumns := Columns(
    "service_id", "service_name",
    "provider_id", "provider_name",
    "provider_service_id", "provider_service_name")

  function GetLong(row: ResultRow, column: string): Option<int> {
    if column in row.longs then Some(row.longs[column]) else None
  }

  function GetString(row: ResultRow, column: string): Option<string> {
    if column in row.strings then Some(row.strings[column]) else None
  }

  /** Both columns of a pair, or nothing when either read would throw. */
  function ReadCell(row: ResultRow, idLabel: string, nameLabel: string): (c: Option<Cell>)
    ensures c.Some? <==> idLabel in row.longs && nameLabel in row.strings
    ensures c.Some? ==> c.value == Cell(row.longs[idLabel], row.strings[nameLabel])
  {
    match (GetLong(row, idLabel), GetString(row, nameLabel))
    case (Some(id), Some(name)) => Some(Cell(id, name))
    case _ => None
  }

  /** The four reads of one loop iteration, each through its own label. */
  function ReadRow(cols: Columns, row: ResultRow): (r: FlatRow)
    ensures r.primaryId.Some? <==> cols.primaryId in row.longs
    ensures r.primaryName.Some? <==> cols.primaryName in row.strings
    ensures r.related.Some? <==> cols.relatedId in row.longs && cols.relatedName in row.strings
    ensures r.secondary.Some? <==> cols.secondaryId in row.longs && cols.secondaryName in row.strings
    ensures r.primaryId.Some? ==> r.primaryId.value == row.longs[cols.primaryId]
    ensures r.primaryName.Some? ==> r.primaryName.value == row.strings[cols.primaryName]
    ensures r.related.Some? ==> r.related.value == Cell(row.longs[cols.relatedId], row.strings[cols.relatedName])
    ensures r.secondary.Some? ==> r.secondary.value == Cell(row.longs[cols.secondaryId], row.strings[cols.secondaryName])
  {
    FlatRow(
      GetLong(row, cols.primaryId),
      GetString(row, cols.primaryName),
      ReadCell(row, cols.relatedId, cols.relatedName),
      ReadCell(row, cols.secondaryId, cols.secondaryName))
  }

  function ReadRows(cols: Columns, rs: seq<ResultRow>): (rows: seq<FlatRow>)
    ensures |rows| == |rs|
    ensures forall i :: 0 <= i < |rs| ==> rows[i] == ReadRow(cols, rs[i])
  {
    seq(|rs|, i requires 0 <= i < |rs| => ReadRow(cols, rs[i]))
  }
}

=== FILE: scenarios.dfy ===
/** Worked examples of the model on small inputs: the diff of one update, one
    MEDIUM extraction, a mixed-case depth token, and a DEEP extraction that
    repeats a secondary. */
module Scenarios {
  import opened Wrappers
  import opened Entities
  import opened Depth
  import opened Rows
  import opened Reconstruct
  import opened ResultExtractors
  import opened JoinTable

  function Service(id: int, name: string): Entity {
    New(ServiceKind, id, name)
  }

  /** The provider of the diff example: currently linked to services 1, 2
      and 3, now listing 2, 3 and 4. */
  const Current: seq<int> := [1, 2, 3]
  const Desired: seq<Entity> := [Service(2, "b"), Service(3, "c"), Service(4, "d")]
  const Edited: Entity := Entity(ProviderKind, 7, "P", false, Desired)

  lemma RemoveExample()
    ensures ToRemove(Current, Edited) == [1]
  {
    assert Ids(Desired) == [2, 3, 4];
    assert !ContainsRelated(Edited, 1) && ContainsRelated(Edited, 2) && ContainsRelated(Edited, 3);
    assert Current[1..] == [2, 3] && [2, 3][1..] == [3] && [3][1..] == [];
    assert ToRemove([3], Edited) == [];
    assert ToRemove([2, 3], Edited) == [];
  }

  lemma AddExample()
    ensures ToAdd(Current, Desired) == [4]
  {
    assert Desired[1..] == [Service(3, "c"), Service(4, "d")] && Desired[1..][1..] == [Service(4, "d")];
    assert [Service(4, "d")][1..] == [] && ToAdd(Current, []) == [];
    assert 4 !in Current && 2 in Current && 3 in Current;
    assert ToAdd(Current, [Service(4, "d")]) == [4];
    assert ToAdd(Current, Desired[1..]) == [4];
  }

  /** The update deletes service 1 and inserts service 4. */
  lemma DiffExample()
    ensures ToRemove(Current, Edited) == [1] && ToAdd(Current, Edited.related) == [4]
  {
    RemoveExample();
    AddExample();
  }

  /** A MEDIUM row as the provider extractor sees it. */
  function MediumRow(pid: int, pname: string, related: Option<Cell>): ResultRow {
    match related
    case None => ResultRow(map["provider_id" := pid], map["provider_name" := pname])
    case Some(c) =>
      ResultRow(map["provider_id" := pid, "service_id" := c.id],
                map["provider_name" := pname, "service_name" := c.name])
  }

  const MediumRows: seq<ResultRow> := [
    MediumRow(1, "A", Some(Cell(10, "X"))),
    MediumRow(1, "A", Some(Cell(11, "Y"))),
    MediumRow(2, "B", None)]

  const R0 := FlatRow(Some(1), Some("A"), Some(Cell(10, "X")), None)
  const R1 := FlatRow(Some(1), Some("A"), Some(Cell(11, "Y")), None)
  const R2 := FlatRow(Some(2), Some("B"), None, None)
  const ProviderA1 := Entity(ProviderKind, 1, "A", false, [Service(10, "X")])
  const ProviderA2 := Entity(ProviderKind, 1, "A", false, [Service(10, "X"), Service(11, "Y")])

  lemma MediumRowsRead()
    ensures ReadRows(ProviderColumns, MediumRows) == [R0, R1, R2]
  {
    var rows := ReadRows(ProviderColumns, MediumRows);
    assert rows[0] == R0 && rows[1] == R1 && rows[2] == R2;
  }

  lemma MediumFirstRow()
    ensures Step(ProviderKind, map[], R0) == Success(map[1 := ProviderA1])
  {
    assert !ContainsRelated(New(ProviderKind, 1, "A"), 10);
    assert AttachRow(ProviderKind, New(ProviderKind, 1, "A"), R0) == ProviderA1;
  }

  lemma MediumSecondRow()
    ensures Step(ProviderKind, map[1 := ProviderA1], R1) == Success(map[1 := ProviderA2])
  {
    assert Ids(ProviderA1.related) == [10];
    assert !ContainsRelated(ProviderA1, 11);
    assert AttachRow(ProviderKind, ProviderA1, R1) == ProviderA2;
    assert map[1 := ProviderA1][1 := ProviderA2] == map[1 := ProviderA2];
  }

  lemma MediumFirstTwoRows()
    ensures Extract(ProviderKind, [R0, R1]) == Success(map[1 := ProviderA2])
  {
    MediumFirstRow();
    MediumSecondRow();
    assert [R0, R1][..1] == [R0] && [R0][..0] == [];
    assert Extract(ProviderKind, [R0]) == Success(map[1 := ProviderA1]);
  }

  lemma MediumAllRows()
    ensures Extract(ProviderKind, [R0, R1, R2]) == Success(map[1 := ProviderA2, 2 := New(ProviderKind, 2, "B")])
  {
    MediumFirstTwoRows();
    assert [R0, R1] + [R2] == [R0, R1, R2];
    ExtractSnoc(ProviderKind, [R0, R1], R2, map[1 := ProviderA2]);
    assert AttachRow(ProviderKind, New(ProviderKind, 2, "B"), R2) == New(ProviderKind, 2, "B");
    assert Step(ProviderKind, map[1 := ProviderA2], R2) == Success(map[1 := ProviderA2, 2 := New(ProviderKind, 2, "B")]);
  }

  /** Provider 1 with services 10 and 11, and provider 2 with none. */
  lemma MediumExample()
    ensures ExtractProviders(MediumRows) == Success(map[1 := ProviderA2, 2 := New(ProviderKind, 2, "B")])
  {
    MediumRowsRead();
    MediumAllRows();
  }

  /** "Deep" in mixed case names DEEP: a single lookup accepts it, a bulk
      fetch refuses it. */
  lemma MixedCaseDeepToken()
    ensures FromString("Deep") == Success(Deep)
    ensures FindByIdDepth(FromString("Deep").value) == Success(Deep)
    ensures FindAllDepth(FromString("Deep").value) == Failure(UnsupportedDepth(Deep))
  {
    assert EqualsString(Deep, "Deep");
    DeepTokenOnlyForSingleLookup("Deep");
  }

  const DeepRow := FlatRow(Some(1), Some("A"), Some(Cell(10, "X")), Some(Cell(5, "Q")))
  const Secondary := New(ProviderKind, 5, "Q")
  const DeepOnce := Entity(ProviderKind, 1, "A", false, [Entity(ServiceKind, 10, "X", false, [Secondary])])
  const DeepTwice := Entity(ProviderKind, 1, "A", false, [Entity(ServiceKind, 10, "X", false, [Secondary, Secondary])])

  lemma DeepFirstRow()
    ensures AttachRow(ProviderKind, New(ProviderKind, 1, "A"), DeepRow) == DeepOnce
  {
    var root := New(ProviderKind, 1, "A");
    assert !ContainsRelated(root, 10);
    AttachRowFresh(ProviderKind, root, DeepRow);
    assert SecondaryOf(ProviderKind, DeepRow) == [Secondary];
    assert root.related + [Entity(ServiceKind, 10, "X", false, [Secondary])] == DeepOnce.related;
  }

  lemma DeepSecondRow()
    ensures AttachRow(ProviderKind, DeepOnce, DeepRow) == DeepTwice
  {
    assert Ids(DeepOnce.related) == [10];
    assert ContainsRelated(DeepOnce, 10);
    assert AddRelatedIfAbsent(DeepOnce, Service(10, "X")) == DeepOnce;
    assert FirstIndex(DeepOnce.related, 10) == Some(0);
    assert AddRelated(DeepOnce.related[0], Secondary) == DeepTwice.related[0];
    assert AttachSecondary(DeepOnce, 10, Secondary) == DeepTwice;
  }

  lemma DeepOneRow()
    ensures Extract(ProviderKind, [DeepRow]) == Success(map[1 := DeepOnce])
  {
    DeepFirstRow();
    assert [DeepRow][..0] == [];
    assert Step(ProviderKind, map[], DeepRow) == Success(map[1 := DeepOnce]);
  }

  lemma DeepSecondStep()
    ensures Step(ProviderKind, map[1 := DeepOnce], DeepRow) == Success(map[1 := DeepTwice])
  {
    DeepSecondRow();
    assert map[1 := DeepOnce][1 := DeepTwice] == map[1 := DeepTwice];
  }

  /** Two identical DEEP rows: the service is listed once, but its secondary
      provider is appended twice, since the secondary step does not look for
      an existing id. */
  lemma DeepRowsRepeatSecondary()
    ensures Extract(ProviderKind, [DeepRow, DeepRow]) == Success(map[1 := DeepTwice])
  {
    DeepOneRow();
    DeepSecondStep();
    assert [DeepRow] + [DeepRow] == [DeepRow, DeepRow];
    ExtractSnoc(ProviderKind, [DeepRow], DeepRow, map[1 := DeepOnce]);
  }

  /** A scan that reaches `acc` and then reads one more row takes one step on `acc`. */
  lemma ExtractSnoc(kind: Kind, rows: seq<FlatRow>, row: FlatRow, acc: map<int, Entity>)
    requires Extract(kind, rows) == Success(acc)
    ensures Extract(kind, rows + [row]) == Step(kind, acc, row)
  {
    assert (rows + [row])[..|rows|] == rows;
  }
}

=== FILE: service_repository.dfy ===
/** `ServiceRepository`: the depth dispatch of the two fetches and the
    join-table effect of `save` and `update`.

    The rows a fetch's query returns are a parameter (the SQL itself is not
    modelled), and so is the key the database generates on `save`. */
module ServiceRepository {
  import opened Wrappers
  import opened Entities
  import opened Depth
  import opened Rows
  import opened Reconstruct
  import opened ResultExtractors
  import opened JoinTable

  /** `save`: one `provider_service` row `(provider.id, newId)` per provider,
      in list order, and the service under its generated key. Read back under
      that key, the table lists exactly the service's providers, each as often
      as it is listed (in list order, when the SELECT returns rows in table
      order). */
  function Save(table: seq<Link>, service: Entity, newId: int): (r: (Entity, seq<Link>))
    ensures r.0 == service.(id := newId)
    ensures |r.1| == |table| + |service.related| && r.1[..|table|] == table
    ensures forall i :: 0 <= i < |service.related| ==> r.1[|table| + i] == Link(service.related[i].id, newId)
    ensures (forall i :: 0 <= i < |table| ==> table[i].serviceId != newId) ==>
              && multiset(Select(ServiceSide, r.1, newId)) == multiset(Ids(service.related))
              && Select(ServiceSide, r.1, newId) == Ids(service.related)
  {
    SaveReadBack(ServiceSide, table, newId, service);
    (service.(id := newId), SaveLinks(ServiceSide, table, newId, service))
  }

  /** `update`, steps 2-6: afterwards the service's rows name exactly its
      providers, other services' rows are untouched, no row is duplicated when
      none was and the providers are distinct, and a repeated update changes
      nothing. The service is returned as given. */
  function Update(table: seq<Link>, service: Entity): (r: (Entity, seq<Link>))
    ensures r.0 == service
    ensures forall pid :: pid in Select(ServiceSide, r.1, service.id) <==> ContainsRelated(service, pid)
    ensures forall l: Link :: l.serviceId != service.id ==> multiset(r.1)[l] == multiset(table)[l]
    ensures NoDuplicateLinks(table) && DistinctIds(service.related) ==> NoDuplicateLinks(r.1)
    ensures Sync(ServiceSide, r.1, service) == r.1
  {
    SyncReachesDesired(ServiceSide, table, service);
    SyncKeepsOtherOwners(ServiceSide, table, service);
    SyncTwice(ServiceSide, table, service);
    SyncNoDuplicates(ServiceSide, table, service);
    (service, Sync(ServiceSide, table, service))
  }

  /** `findAll`: SHALLOW and MEDIUM extract the query's rows, DEEP is refused
      before any query runs. When the rows carry no more column pairs than
      the depth nests (`RowsConform`), the services nest no deeper than that depth. */
  function FindAll(depth: DepthLevel, rs: seq<ResultRow>): (r: Result<map<int, Entity>, FetchError>)
    ensures (r.Failure? && r.error.DepthFailure?) <==> depth == Deep
    ensures r.Failure? && r.error.DepthFailure? ==> r.error.depthError == UnsupportedDepth(depth)
    ensures depth != Deep ==> (r.Success? <==> ExtractServices(rs).Success?)
    ensures r.Success? ==> r.value == ExtractServices(rs).value
    ensures r.Success? && RowsConform(ReadRows(ServiceColumns, rs), depth) ==>
              && (depth == Shallow ==> forall id :: id in r.value ==> r.value[id].related == [])
              && forall id, k :: id in r.value && 0 <= k < |r.value[id].related| ==> r.value[id].related[k].related == []
  {
    match FindAllDepth(depth)
    case Failure(e) => Failure(DepthFailure(e))
    case Success(_) =>
      match ExtractServices(rs)
      case Failure(e) => Failure(ExtractFailure(e))
      case Success(m) =>
        DepthBoundsNesting(ServiceKind, ReadRows(ServiceColumns, rs), depth);
        Success(m)
  }

  /** `findById` up to the extractor's result: every depth selects a query,
      so only extraction can fail; when the rows all carry `id`, the result
      holds that service alone. */
  function FindById(id: int, depth: DepthLevel, rs: seq<ResultRow>): (r: Result<map<int, Entity>, FetchError>)
    ensures r.Success? <==> ExtractServices(rs).Success?
    ensures r.Failure? ==> r.error.ExtractFailure?
    ensures r.Success? ==> r.value == ExtractServices(rs).value
    ensures r.Success? && (forall i :: 0 <= i < |rs| ==> GetLong(rs[i], "service_id") == Some(id)) ==>
              r.value.Keys == if |rs| == 0 then {} else {id}
    ensures r.Success? && RowsConform(ReadRows(ServiceColumns, rs), depth) && depth != Deep ==>
              forall sid, k :: sid in r.value && 0 <= k < |r.value[sid].related| ==> r.value[sid].related[k].related == []
  {
    var level := FindByIdDepth(depth).value;
    match ExtractServices(rs)
    case Failure(e) => Failure(ExtractFailure(e))
    case Success(m) =>
      DepthBoundsNesting(ServiceKind, ReadRows(ServiceColumns, rs), level);
      Success(m)
  }
}

=== FILE: wrappers.dfy ===
/** Wrappers used throughout the model: `Option` stands for
    Java's `Optional` and for a column that cannot be read, `Result` for a value
    or the exception that replaces it. */
module Wrappers {

  datatype Option<+T> = None | Some(value: T) {

    /** The wrapped value, or `default` when there is none. */
    function GetOr(default: T): T {
      match this
      case Some(v) => v
      case None => default
    }
  }

  datatype Result<+R, +E> = Success(value: R) | Failure(error: E)
}
